=== FILE: README.md ===
# verbalize core in Dafny

This project models the core of verbalize, a blog that runs on Google App Engine. The model covers:

- **Excerpts.** `SavedEntry.Context` cuts an entry's content at the first "more" tag and marks the entry as excerpted when the cut removed anything.
- **Entry and link queries.** `GetEntries`, `GetSingleEntry` and `GetLinks` are modelled over an in-memory datastore. A query is filter, then sort, then offset, then count.
- **The public pages.** `rootHandler` serves the archive with page numbers, previous and next links, and the one-entry lookahead; otherwise it serves a single entry or page. `feedHandler` serves the feed.
- **The page cache.** Both handlers read through a versioned memcache page cache. The key is `path + "@" + version`. A hit is written back as it is. A miss or a memcache error on the Get renders the page and offers it to `Add`, which stores it only when memcache answers and the key is absent.
- **The admin handlers.** `adminSubmitEntryHandler` validates the form, builds the entry and derives its RelativeURL, then puts it and flushes the cache. `adminSubmitLinksHandler` puts a link and flushes. `adminEditEntryHandler` supplies the editing defaults. The admin listings are included too.
- **Snippets.** The `ExtractPageContent` template function keeps the lines between a start token and an end token of a fetched page. It caches the extract under `URL-start-end`.

Modules:

- `GoText`: the Go library behaviour the core relies on, on strings and bytes. This covers `strings.Index`/`Contains`/`TrimSpace`, `strconv.Atoi`/`ParseBool`, `%d`/`%02d`, UTF-8 encoding and `FormValue`.
- `Sorting`: insertion sort under a total preorder, and code-point string order.
- `Datastore`: Get, Put and queries over `seq<T>` with a key function.
- `Blog`: the entity types, the excerpt, and the entry, single-entry and link lookups.
- `Memcache`: Get, Add, `storeInCache` and Flush over a key-to-bytes map.
- `Paths`: `filepath.Base` and `filepath.Dir` on request paths.
- `Handlers`: the page handlers, the read-through cache and the admin handlers.
- `TemplateFunctions`: the snippet scanner.

Everything is a pure function of its inputs. Several things the handlers read from the outside world become parameters:

- the request path
- the application version
- whether memcache answers the Get and, separately, the Add of a request (two `Memcache.Service` values)
- the signed-in user
- the request time
- whether a datastore Put fails
- the template renderer (`render: View -> Bytes`)
- what the URL fetch returned (`TemplateFunctions.Fetch`)

Some modelling choices:

- Timestamps are whole microseconds since January 1 of year 1 (UTC), the precision the datastore keeps, so Go's zero `time.Time` is instant 0. The calendar year and month are carried with each instant.
- The datastore breaks ties in a sort order by key, as App Engine does. Keys are compared in code-point order.
- An entity whose key is empty gets a fresh numeric id, so Put appends it.

## Model

| member | source | states |
|---|---|---|
| Blog.SplitN2 | verbalize/blog.go:75-76 | `bytes.SplitN(content, tag, 2)`: with a tag, the part before its first occurrence and the rest: part 0 is as long as `bytes.Index` of the tag, and never contains it. Without the tag, just the content. An empty tag splits off the first UTF-8 sequence. |
| Blog.Excerpt | verbalize/blog.go:75-76 | The excerpt is a prefix of the content. For a non-empty tag, it equals the content exactly when the tag does not occur. It is undefined (the index panic) only for empty content with an empty tag. |
| Blog.Time.Unix | verbalize/blog.go:83 | Whole seconds since the Unix epoch rounded down: the result times one million is at most the microseconds since the epoch, which are below the next second. |
| Blog.Context | verbalize/blog.go:74-99 | The excerpt is the one Excerpt cuts with the tag's UTF-8 bytes. IsExcerpted holds exactly when the excerpt is shorter than the content; for a non-empty tag, that is exactly when the tag occurs. Author, the three flags, content, slug, title and RelativeURL are copied, and the timestamp is the Unix time. |
| Blog.ExcerptBeforeFirstTag | verbalize/blog.go:75-76 | With content `a + tag + b` whose first tag follows `a`, the excerpt is `a`, whatever `b` holds, including more tags. |
| Blog.ExcerptWithoutTag | verbalize/blog.go:75-95 | Content without the tag is its own excerpt and is not excerpted. |
| Datastore.Get | verbalize/blog.go:347-351 | An empty key is an invalid key. Otherwise the lookup succeeds exactly when some entity has the key, and then returns an entity with that key; NoSuchEntity exactly when there is none. |
| Datastore.GetStored | verbalize/blog.go:347-351 | In a uniquely keyed store, Get by a stored entity's non-empty key returns that entity. |
| Datastore.Put | verbalize/handlers.go:261-265 | Afterwards Get of the entity's key finds it. Every other key reads as before. Every entity not stored under the new entity's key survives, and one with an empty key is appended. As a multiset, the new entity replaces the one Get found under its key, or is added when there was none. The store stays keyed uniquely. |
| Datastore.Query | verbalize/blog.go:319-343 | Results pass the filters and are sorted. They are a sub-multiset of the store, at most `limit` long. With no filtering, offset or limit, they are the whole store. |
| Datastore.WindowLookahead | verbalize/handlers.go:84-93 | Taking n of an (n+1)-result window gives the n-result window. The extra result is there exactly when more than n results follow the offset. |
| Datastore.WindowsTile | verbalize/blog.go:337-339 | Consecutive offset/limit windows join into the combined window, so archive pages tile the result set. |
| Blog.NewerFirstOrders | verbalize/blog.go:319-320 | Newest first, ties broken by key, is a total preorder. |
| Blog.MatchingEntries | verbalize/blog.go:319-336 | Exactly the stored entries the filters accept, each as often as stored, sorted newest first with ties broken by slug. |
| Blog.GetEntries | verbalize/blog.go:314-344 | Every result has the requested kind. None is hidden unless asked for, and all lie strictly inside non-zero Start and End bounds. Results are newest first and at most the effective Count long (0 means entries_per_page). They are stored entries. |
| Blog.GetEntriesIsPageOfMatches | verbalize/blog.go:315-339 | The result is the Offset/Count window of all matching entries, newest first. Only a positive offset skips anything. |
| Blog.GetEntriesFindsAll | verbalize/blog.go:334-336 | With no effective limit and no offset, an entry is returned exactly when it is stored and matches. So hidden entries are returned when IncludeHidden is set. |
| Blog.GetEntriesLookahead | verbalize/blog.go:319-320 | The first N of a Count N+1 answer are the Count N answer. The extra entry comes back exactly when more than N matches follow the offset. |
| Blog.GetEntriesPageAt | verbalize/blog.go:337-339 | A query with a given offset and count returns that window of the matches. |
| Blog.GetEntriesNonPositiveOffset | verbalize/blog.go:337-339 | A zero or negative offset skips nothing. With no limit as well, the result is every match. |
| Blog.GetEntriesAsWritten | verbalize/blog.go:314-344 | GetEntries as written: a non-zero Start bounds results below by End, not Start. |
| Blog.GetEntriesAsWrittenAgreesWithoutBounds | verbalize/blog.go:328-333 | With Start and End both zero, as every handler passes them, the written and the intended filters return the same entries. |
| Blog.AsWrittenStartAndEndSelectNothing | verbalize/blog.go:328-333 | As written, a query with both Start and End set returns nothing. |
| Blog.AsWrittenIgnoresStart | verbalize/blog.go:328-329 | As written, a post published before Start is returned, while the intended query drops it. |
| Blog.GetEntriesFindsAllAsWritten | verbalize/blog.go:328-343 | As written, with no limit or offset every stored entry passing the written filters is returned. |
| Blog.GetSingleEntry | verbalize/blog.go:347-351 | An empty slug is an invalid key. Otherwise an entry is found exactly when some stored entry has that slug, and the one found has it; NoSuchEntity exactly when none has. |
| Blog.LinkBeforeOrders | verbalize/blog.go:355 | Order, then Title, then key, is a total preorder. |
| Blog.GetLinks | verbalize/blog.go:354-358 | Every stored link, each as often as stored, by Order ascending, then Title. |
| Memcache.Get | verbalize/handlers.go:43-51 | Hit exactly when the service is up and the key is present, with the stored bytes. A miss exactly when up and absent. Otherwise an error. |
| Memcache.Add | verbalize/blog.go:455-462 | Stores only when the service is up and the key is absent. An existing key gives NotStored. Any error leaves the cache unchanged. |
| Memcache.StoreInCache | verbalize/blog.go:454-466 | Never replaces or removes an item and adds no key but its own. With the service up the key is present afterwards, holding the old item if there was one. |
| Memcache.Flush | verbalize/handlers.go:267 | Afterwards no key hits, and with the service up every key misses. |
| Paths.Base | verbalize/handlers.go:62 | `filepath.Base`: the empty path gives "." and a path of slashes only gives "/". Otherwise the result is the last element after trailing slashes are removed: a slash-free suffix preceded by a slash or the start. |
| Paths.Dir | verbalize/handlers.go:65 | `filepath.Dir` of a served path is everything before its last slash, or "/" when that slash is the first character. So a path with a trailing slash has itself, minus that slash, as its parent. |
| Paths.BaseOfChild | verbalize/handlers.go:96 | The last element of `dir/name`, and of `dir/name/`, is `name`. |
| Paths.DirOfChild | verbalize/handlers.go:65 | The parent of `dir/name` is `dir`, or "/" for a top-level name. |
| Paths.DirOfChildDir | verbalize/handlers.go:65 | The parent of `dir/name/` is `dir/name`. |
| GoText.Atoi | verbalize/handlers.go:62 | `strconv.Atoi`: digits alone read as their value; a non-digit after the first character, or a first character that is neither digit nor sign, is an error; only a leading "-" gives a negative value. A sign followed by digits reads as the digits' value, negated for "-", so "+5" is 5 and "-05" is -5. |
| GoText.Itoa | verbalize/handlers.go:67 | `%d` writes a non-negative number as its decimal digits without a leading zero ("0" only for zero), and a negative one as "-" then the digits of its magnitude. |
| GoText.ItoaRoundTrip | verbalize/handlers.go:62-67 | `strconv.Atoi` reads back what `%d` wrote. |
| GoText.Pad2 | verbalize/handlers.go:258-259 | `%02d` of a number below 100 is its tens digit then its units digit, so a month is zero-padded, and it reads back as the number. |
| GoText.TrimSpace | verbalize/handlers.go:212-214 | The result has no leading or trailing white space, and it is the input with only white space removed at either end. |
| GoText.ParseBool | verbalize/handlers.go:246 | `strconv.ParseBool` accepts exactly the listed spellings of true and false. |
| Handlers.PageKey | verbalize/handlers.go:41 | The page cache key is the request path, then "@", then the version, each recoverable at its position. |
| Handlers.PageKeyVersions | verbalize/handlers.go:41 | For one path, two versions give the same cache key exactly when they are equal. |
| Handlers.PageKeyPathsCollide | verbalize/handlers.go:130 | Across paths the key is not injective: "/a@b" with version "c" and "/a" with version "b@c" share a key. |
| Handlers.ParsePage | verbalize/handlers.go:62-74 | A last element parsing to n > 1 selects page n of the parent path, linking back to page n-1's URL (the parent itself for n = 2). Anything else is page 1 of the path itself with no previous link. |
| Handlers.PageURL | verbalize/handlers.go:67-71 | Page 1's URL is the directory itself; page n's URL is the directory followed by text that strconv.Atoi reads back as n. |
| Handlers.ParsePageURL | verbalize/handlers.go:62-74 | The URL of archive page n parses back to page n of "/", and its previous link is the URL of page n-1. |
| Handlers.NumberPage | verbalize/handlers.go:62-71 | "/" followed by a number n > 1 is page n of "/". |
| Handlers.NumberSlashIsEntry | verbalize/handlers.go:62-76 | With a trailing slash, as in "/5/", the number is still read as page n, but the parent is "/5", not "/", so rootHandler looks up an entry instead of the archive. |
| Handlers.SecondPageURL | verbalize/handlers.go:62-71 | "/2" is page 2 of "/", linking back to "/". |
| Handlers.ArchiveQuery | verbalize/handlers.go:79-87 | The archive asks for visible posts, one more than a page holds, at a non-negative offset. |
| Handlers.Archive | verbalize/handlers.go:76-93 | Page n shows the window of visible posts after n-1 pages, at most a page long. It links to page n+1 exactly when more than n pages' worth of posts exist. |
| Handlers.ArchiveIsLookahead | verbalize/handlers.go:82-93 | Trimming the lookahead answer gives the page's window. The lookahead entry is there exactly when more posts exist than n pages hold. |
| Handlers.ArchiveSecondPage | verbalize/handlers.go:76-93 | With seven visible posts at five per page, page 2 shows the sixth and seventh and has no next link. |
| Handlers.FeedView | verbalize/handlers.go:140-147 | The feed renders the feed template titled "Atom Feed" with at most entries_per_page entries, the newest visible posts, and no links or page URLs. |
| Handlers.FeedEntries | verbalize/handlers.go:142-143 | The feed lists the newest entries_per_page visible posts. |
| Handlers.RootView | verbalize/handlers.go:53-112 | "/" and its numbered pages render the archive, titled with the subtitle. Any other path renders the entry stored under its last element, as a page or an entry. It is not found exactly when no such entry exists. Links are GetLinks, and the previous link is the parsed one. |
| Handlers.ReadThrough | verbalize/handlers.go:43-122 | A hit returns the cached bytes without rendering and leaves the cache unchanged. A miss or a Get error renders the view and returns it. When memcache answers the Add and the key is absent, the bytes are stored under it; when the Add fails, the cache is unchanged. Not found is neither rendered nor cached. No cached item is ever replaced. |
| Handlers.RootHandler | verbalize/handlers.go:37-123 | A miss renders exactly RootView. A body that was rendered is the render of that view. A not-found leaves the cache alone. |
| Handlers.FeedHandler | verbalize/handlers.go:126-154 | The feed always answers. It renders exactly when the Get does not hit, with the newest visible posts, and an absent key is cached with expiration 0 when the Add succeeds. |
| Handlers.ReadThroughRepeats | verbalize/handlers.go:43-51 | A page served while the Add succeeded is served again byte for byte, without rendering, by the next request whose Get succeeds, whatever that request would have rendered. The first Get may have failed if the key was absent. |
| Handlers.RootHandlerRepeats | verbalize/handlers.go:41-51 | The same for rootHandler, even when entries or links changed in between without a flush. |
| Handlers.PostURLBase | verbalize/handlers.go:255-260 | A post's URL ends in its slug. |
| Handlers.PriorEntry | verbalize/handlers.go:215-234 | A new post starts blank with the signed-in user as author. Otherwise it starts from the entry stored under the slug, or from a blank entry holding only the slug when there is none. |
| Handlers.ResubmitKeepsAuthorAndDate | verbalize/handlers.go:232-253 | Resubmitting a stored entry's form starts from that entry, so its author and a set publish date are kept. |
| Handlers.RelativeURL | verbalize/handlers.go:254-260 | A page's URL is its slug. A post's URL, for a month below 100, is text that reads back as the year, "/", two characters that read back as the month, "/", then the slug. |
| Handlers.FormEntry | verbalize/handlers.go:236-260 | The entry's flags come from "on" checkboxes. IsPage is true only for a ParseBool true. Content, title and slug are the trimmed fields. A non-zero prior PublishDate is kept, else now. RelativeURL is the slug for a page, else year/MM/slug. |
| Handlers.SubmitEntry | verbalize/handlers.go:211-267 | Empty trimmed content or title rejects the form, in that order. A rejection or a failed Put leaves site and cache unchanged. Otherwise the entry built on the prior entry is saved: put under its slug, with the cache flushed. |
| Handlers.SavedEntryStored | verbalize/handlers.go:261-265 | After an entry is saved, GetSingleEntry finds it under its slug, and the store stays keyed uniquely. |
| Handlers.SavedFlushesPages | verbalize/handlers.go:267 | After an entry is saved, every page request renders afresh. |
| Handlers.PostPath | verbalize/handlers.go:255-260 | A post's URL is a served path whose last element is its slug, and rootHandler does not read it as an archive page. |
| Handlers.NestedPath | verbalize/handlers.go:62-96 | A three-element path is served, its last element is the name, and it is not the archive. |
| Handlers.ChildIsNotRoot | verbalize/handlers.go:64-76 | Below a non-root directory, rootHandler never shows the archive. |
| Handlers.SavedPostIsServed | verbalize/handlers.go:96-107 | A saved post with a one-element slug is served at "/" + its RelativeURL, as a single entry. |
| Handlers.PageSlugShadowedByArchive | verbalize/handlers.go:62-96 | A page at "/" + slug is served as that page unless the slug reads as a number above 1. Then the URL shows the archive instead. |
| Handlers.EditEntry | verbalize/handlers.go:173-203 | With an empty trimmed slug, a blank page when the trimmed is_page field is non-empty, else a blank post that allows comments. With a slug, the stored entry, or a failure exactly when none has that slug. |
| Handlers.EditShowsStored | verbalize/handlers.go:184-192 | In a uniquely keyed store, a form naming a stored entry's slug shows exactly that entry, titled with its title. |
| Handlers.EditEntryFor | verbalize/handlers.go:173-203 | With no slug the form starts from a blank post or page, and comments are allowed only on a post. With a slug it shows the stored entry, or fails exactly when none has that slug. |
| Handlers.AdminEntries | verbalize/handlers.go:157-170 | The admin listings show the newest entries_per_page entries of their kind, hidden ones included. |
| Handlers.AdminEntriesAll | verbalize/handlers.go:159-167 | When a page holds the whole store, the listing shows every entry of its kind. |
| Handlers.FormLink | verbalize/handlers.go:286-291 | Title and URL are the trimmed form fields. Order is the value of the trimmed new_order field, or 0 when it does not parse. |
| Handlers.SubmitLinks | verbalize/handlers.go:284-300 | A failed Put changes nothing. Otherwise the form's link is put under its URL, the cache is flushed, and the entries are untouched. |
| Handlers.SubmitLinksStores | verbalize/handlers.go:284-298 | A submitted link is listed by GetLinks and found under its URL, and the links stay keyed uniquely. |
| Handlers.SaveLink | verbalize/handlers.go:292-298 | A failed Put changes nothing. Otherwise the link is put under its URL and the cache flushed, and the entries are untouched. |
| Handlers.SaveLinkStores | verbalize/handlers.go:292 | The saved link is listed by GetLinks and found under its URL, and the links stay keyed uniquely. |
| Handlers.FormLinkOrder | verbalize/handlers.go:286-291 | A link's Order is the number typed into the form. |
| TemplateFunctions.SnippetKey | verbalize/template_functions.go:29 | The snippet cache key is the URL, "-", the start token, "-", the end token, each at its position. |
| TemplateFunctions.SnippetKeyCollides | verbalize/template_functions.go:29 | The snippet key is not injective: a "-" inside a part moves the boundary. |
| TemplateFunctions.Scan | verbalize/template_functions.go:49-64 | The loop's state after the lines so far: a line with the end token leaves it outside a block, a line with the start token and no end token leaves it inside one, and a line outside a block writes nothing. |
| TemplateFunctions.CapturedStep | verbalize/template_functions.go:55-63 | A line is captured exactly when it has no end token and either has a start token or follows a captured line. |
| TemplateFunctions.CapturedBefore | verbalize/template_functions.go:55-63 | A captured line without a start token follows a captured line. |
| TemplateFunctions.CapturedAfter | verbalize/template_functions.go:58-63 | A block continues past a line without the end token. |
| TemplateFunctions.ScanIsSelected | verbalize/template_functions.go:49-64 | The inBlock loop's buffer is the in-order concatenation of the captured lines, with nothing in between. Its inBlock says whether the last line was captured. |
| TemplateFunctions.EndLineNotCaptured | verbalize/template_functions.go:58-63 | A line holding the end token is never captured, even with a start token. |
| TemplateFunctions.NoStartNoExtract | verbalize/template_functions.go:53-64 | With no start token anywhere the extract is empty. |
| TemplateFunctions.EmptyEndNoExtract | verbalize/template_functions.go:58-60 | An empty end token matches every line, so the extract is empty. |
| TemplateFunctions.BlockExtract | verbalize/template_functions.go:53-64 | Start line, inner line, end line: the extract is the start line followed by the inner line. |
| TemplateFunctions.ExtractPageContent | verbalize/template_functions.go:28-74 | A hit returns the cached bytes without fetching. A fetch or scan error returns that error and leaves the cache unchanged. Otherwise the captured lines are returned, and when the Add succeeds on an absent key they are stored under it with the TTL, even when empty. A failed Add leaves the cache unchanged. |
| TemplateFunctions.ExtractRepeats | verbalize/template_functions.go:31-38 | With memcache up, a successful extract is returned again from the cache without fetching, whatever the page holds by then. |

## Left out

- App Engine services are replaced by in-memory values: datastore, memcache, urlfetch, user and the request context. HTTP status codes, headers and redirects are reduced to the Response, Submission and EditPage results. The in-memory datastore makes every query strongly consistent. On App Engine, non-ancestor queries such as the archive's are eventually consistent, so a page rendered right after a save may not show it yet.
- Template loading and rendering, GetTemplateContext and the YAML configuration are left out. Rendering is the `render` parameter, and the configuration values are `Handlers.Config`.
- `time.Now` is the `now` parameter. The calendar fields of EntryContext (day, hour, minute, month name, RFC 3339 date), EscapedExcerpt and DaysUntil are library formatting or clock-dependent.
- Cache expiry is not modelled: the TTL is recorded in the item and never acts.
- bufio.Scanner's line splitting (line-ending stripping, the 64 KB token limit) is not modelled: the fetch result is the sequence of lines or an error.
- Concurrent requests, which can render the same page twice before either stores it, are out of scope.
- The older copies of the handlers, DaysUntil and ExtractPageContent in blog.go are out of scope; handlers.go and template_functions.go hold the live versions.
- Blog.GetSingleEntry: a datastore.Get that fails for a reason other than a missing entity (a service error) is not modelled; the lookup always answers from the store. In the source such a failure makes rootHandler answer 404 for a stored entry (verbalize/handlers.go:95-98) and adminEditEntryHandler fail (verbalize/handlers.go:184-188), and adminSubmitEntryHandler discards it (verbalize/handlers.go:233): the resubmitted entry is then rebuilt from the form alone, so its author is lost, its PublishDate becomes now and a post's RelativeURL moves to the current month. Handlers.ResubmitKeepsAuthorAndDate holds only because the model's Get cannot fail this way.
- Errors from datastore queries (GetAll) and from GetLinks, which the handlers ignore, are not modelled; queries always succeed.
- A failing memcache.Flush is not modelled; a flush always empties the cache.
- `user.Current(c).String()` is the optional `user` parameter.
- The EntryQuery Tag field is unused by the core and left out.
- Go strings are byte strings, while the model's `string` holds Unicode scalar values, so form fields, paths, tokens and tags that are not valid UTF-8 cannot be represented. Content, cache values and fetched lines are bytes.
- Integers are unbounded. The range clamp of strconv.Atoi on huge numbers and the 64-bit overflow of `entries_per_page * (pageCount - 1)` are not modelled.
- Handlers.Config: entries_per_page is a natural number; a negative value makes the archive's slice expression panic.
- Handlers.ParsePage: requires a canonical request path, which is all http.ServeMux passes to a handler because it redirects any other path. Paths.Dir, Handlers.RootView and Handlers.RootHandler carry the same precondition.
- Blog.GetEntries: tiling of consecutive archive pages is stated on the windows of matching entries (Datastore.WindowsTile together with Blog.GetEntriesPageAt), not as one lemma about three GetEntries calls.

## Findings

| source | as written | input that shows it | evidently intended | confidence | as-written member | corrected member |
|---|---|---|---|---|---|---|
| verbalize/blog.go:328-329 | A non-zero Start adds the filter `PublishDate > End`. | Start at microsecond 20, End zero, one post published at microsecond 10: the post is returned although it precedes Start. With both bounds set, nothing is ever returned. | `PublishDate > Start`. | high, not executed | Blog.AsWrittenIgnoresStart | Blog.GetEntries |

No handler sets Start or End, so the published pages are unaffected (Blog.GetEntriesAsWrittenAgreesWithoutBounds). The model's handlers use the corrected Blog.GetEntries.

=== FILE: blog.dfy ===
/** The blog's stored data and the pure logic around it: entries and links,
    the excerpt an entry shows before its "more" tag, and the entry, link and
    single-entry lookups run against the datastore. */
module Blog {
  import opened GoText
  import opened Sorting
  import Datastore

  // ---------------------------------------------------------------------------
  // Time
  // ---------------------------------------------------------------------------

  /** Microseconds from January 1, year 1 to January 1, 1970 (UTC). */
  const UnixEpoch: int := 62135596800 * 1000000

  /** A time.Time reduced to what the core reads: the instant, in whole
      microseconds since January 1, year 1 UTC (the datastore's precision;
      the zero Time is instant 0), and its calendar year and month (1 to 12). */
  datatype Time = Time(instant: int, year: int, month: int) {
    predicate IsZero() {
      instant == 0
    }

    /** Time.Unix: whole seconds since January 1, 1970 UTC, rounded down. */
    function Unix(): (r: int)
      ensures r * 1000000 <= instant - UnixEpoch < (r + 1) * 1000000
    {
      (instant - UnixEpoch) / 1000000
    }
  }

  /** Go's zero time.Time: January 1, year 1, 00:00:00 UTC. */
  const ZeroTime: Time := Time(0, 1, 1)

  // ---------------------------------------------------------------------------
  // Stored entities
  // ---------------------------------------------------------------------------

  /** A post or a page, stored in the "Entries" collection under its slug. */
  datatype SavedEntry = SavedEntry(
    author: string,
    isHidden: bool,
    isPage: bool,
    allowComments: bool,
    publishDate: Time,
    title: string,
    content: Bytes,
    slug: string,
    relativeURL: string)

  /** The zero SavedEntry{}. */
  const BlankEntry: SavedEntry := SavedEntry("", false, false, false, ZeroTime, "", [], "", "")

  /** SavedEntry.Key: entries are keyed by slug. */
  function EntryKey(e: SavedEntry): string {
    e.slug
  }

  /** A navigation link, stored in the "Links" collection under its URL. */
  datatype SavedLink = SavedLink(title: string, url: string, order: int)

  /** SavedLink.Key: links are keyed by URL. */
  function LinkKey(l: SavedLink): string {
    l.url
  }

  // ---------------------------------------------------------------------------
  // Excerpt extractor
  // ---------------------------------------------------------------------------

  /** bytes.SplitN(s, sep, 2). With a separator: the part before its first
      occurrence and the rest after it, or just `s` when it does not occur.
      With an empty separator: the first UTF-8 sequence and the rest, or just
      `s` when that sequence is all of it, or nothing at all when `s` is empty. */
  function SplitN2(s: Bytes, sep: Bytes): (parts: seq<Bytes>)
    ensures |parts| <= 2
    ensures |parts| == 0 <==> |s| == 0 && |sep| == 0
    ensures |parts| == 1 ==> parts[0] == s
    ensures |sep| > 0 ==> (|parts| == 2 <==> Contains(s, sep))
    ensures |sep| > 0 && |parts| == 2 ==> parts[0] + sep + parts[1] == s && |parts[0]| == Index(s, sep)
    ensures |sep| > 0 && |parts| == 2 ==> !Contains(parts[0], sep)
    ensures |sep| == 0 && |s| > 0 ==> (|parts| == 2 <==> RuneLen(s) < |s|)
    ensures |sep| == 0 && |parts| == 2 ==> parts[0] + parts[1] == s && |parts[0]| == RuneLen(s)
  {
    if |sep| == 0 then
      if |s| == 0 then []
      else
        var n := RuneLen(s);
        if n == |s| then [s] else [s[..n], s[n..]]
    else
      var i := Index(s, sep);
      if i < 0 then [s]
      else
        NothingBeforeFirst(s, sep, i);
        assert s == s[..i] + sep + s[i + |sep|..];
        [s[..i], s[i + |sep|..]]
  }

  /** A separator does not occur before its first occurrence. */
  lemma NothingBeforeFirst(s: Bytes, sep: Bytes, i: int)
    requires |sep| > 0 && i >= 0 && Index(s, sep) == i
    ensures !Contains(s[..i], sep)
  {
    forall j | 0 <= j && j + |sep| <= i
      ensures !OccursAt(s[..i], sep, j)
    {
      assert s[..i][j..j + |sep|] == s[j..j + |sep|];
      assert !OccursAt(s, sep, j);
    }
  }

  /** The excerpt of SavedEntry.Context: element 0 of bytes.SplitN(content,
      more_tag, 2). None stands for the index panic when both are empty. */
  function Excerpt(content: Bytes, tag: Bytes): (r: Option<Bytes>)
    ensures r.None? <==> |content| == 0 && |tag| == 0
    ensures r.Some? ==> |r.value| <= |content| && r.value == content[..|r.value|]
    ensures |tag| > 0 ==> (r == Some(content) <==> !Contains(content, tag))
  {
    var parts := SplitN2(content, tag);
    if |parts| == 0 then None
    else
      assert |parts| == 2 ==> content == parts[0] + (if |tag| > 0 then tag else []) + parts[1];
      Some(parts[0])
  }

  /** The template's view of one entry. The calendar fields (day, hour,
      minute, month name, RFC 3339 date) are not part of this model. */
  datatype EntryContext = EntryContext(
    author: string,
    isHidden: bool,
    isPage: bool,
    allowComments: bool,
    timestamp: int,
    title: string,
    content: Bytes,
    excerpt: Bytes,
    isExcerpted: bool,
    relativeURL: string,
    slug: string)

  /** SavedEntry.Context with the configured "more" tag. */
  function Context(e: SavedEntry, moreTag: string): (r: Option<EntryContext>)
    ensures r.None? <==> |e.content| == 0 && moreTag == ""
    ensures r.Some? ==> |r.value.excerpt| <= |e.content|
    ensures r.Some? ==> r.value.excerpt == e.content[..|r.value.excerpt|]
    ensures r.Some? ==> Excerpt(e.content, Utf8Encode(moreTag)) == Some(r.value.excerpt)
    ensures r.Some? ==> (r.value.isExcerpted <==> |r.value.excerpt| < |e.content|)
    ensures r.Some? && moreTag != "" ==>
              (r.value.isExcerpted <==> Contains(e.content, Utf8Encode(moreTag)))
    ensures r.Some? ==> r.value.content == e.content && r.value.slug == e.slug
                        && r.value.title == e.title && r.value.relativeURL == e.relativeURL
                        && r.value.timestamp == e.publishDate.Unix()
    ensures r.Some? ==> r.value.author == e.author && r.value.isHidden == e.isHidden
                        && r.value.isPage == e.isPage && r.value.allowComments == e.allowComments
  {
    match Excerpt(e.content, Utf8Encode(moreTag))
    case None => None
    case Some(excerpt) =>
      Some(EntryContext(
        author := e.author,
        isHidden := e.isHidden,
        isPage := e.isPage,
        allowComments := e.allowComments,
        timestamp := e.publishDate.Unix(),
        title := e.title,
        content := e.content,
        excerpt := excerpt,
        isExcerpted := |e.content| != |excerpt|,
        relativeURL := e.relativeURL,
        slug := e.slug))
  }

  /** A first occurrence found in a prefix stays the first occurrence
      whatever follows it. */
  lemma IndexExtend(s: Bytes, t: Bytes, sub: Bytes)
    requires Index(s, sub) >= 0
    ensures Index(s + t, sub) == Index(s, sub)
  {
    var i := Index(s, sub);
    assert (s + t)[i..i + |sub|] == s[i..i + |sub|];
    assert OccursAt(s + t, sub, i);
    forall k | 0 <= k < i
      ensures !OccursAt(s + t, sub, k)
    {
      assert (s + t)[k..k + |sub|] == s[k..k + |sub|];
      assert !OccursAt(s, sub, k);
    }
  }

  /** Content `a + tag + b` whose first tag is the one right after `a` has
      excerpt `a`, whatever `b` holds, including further tags. */
  lemma ExcerptBeforeFirstTag(a: Bytes, tag: Bytes, b: Bytes)
    requires |tag| > 0
    requires Index(a + tag, tag) == |a|
    ensures Excerpt(a + tag + b, tag) == Some(a)
  {
    IndexExtend(a + tag, b, tag);
    assert (a + tag + b)[..|a|] == a;
  }

  /** Content without the tag is its own excerpt and is not excerpted. */
  lemma ExcerptWithoutTag(e: SavedEntry, moreTag: string)
    requires moreTag != ""
    requires !Contains(e.content, Utf8Encode(moreTag))
    ensures Context(e, moreTag).Some?
    ensures Context(e, moreTag).value.excerpt == e.content
    ensures !Context(e, moreTag).value.isExcerpted
  {
  }

  // ---------------------------------------------------------------------------
  // Entry queries
  // ---------------------------------------------------------------------------

  /** EntryQuery. The unused Tag field is left out. */
  datatype EntryQuery = EntryQuery(
    start: Time,
    end: Time,
    count: int,
    includeHidden: bool,
    isPage: bool,
    offset: int)

  /** A query literal that sets only IsPage, Count, Offset and IncludeHidden. */
  function ListQuery(isPage: bool, count: int, offset: int, includeHidden: bool): EntryQuery {
    EntryQuery(ZeroTime, ZeroTime, count, includeHidden, isPage, offset)
  }

  /** The part of an EntryQuery that becomes datastore filters. */
  datatype EntryFilters = EntryFilters(start: Time, end: Time, includeHidden: bool, isPage: bool)

  function FiltersOf(q: EntryQuery): EntryFilters {
    EntryFilters(q.start, q.end, q.includeHidden, q.isPage)
  }

  /** The filters GetEntries means to apply: the kind (post or page), a
      non-zero Start as an exclusive lower bound, a non-zero End as an
      exclusive upper bound, and hidden entries only on request. */
  predicate Matches(f: EntryFilters, e: SavedEntry) {
    && e.isPage == f.isPage
    && (f.start.IsZero() || e.publishDate.instant > f.start.instant)
    && (f.end.IsZero() || e.publishDate.instant < f.end.instant)
    && (f.includeHidden || !e.isHidden)
  }

  /** The filters as GetEntries writes them: a non-zero Start adds the filter
      "PublishDate >" End, not Start. */
  predicate MatchesAsWritten(f: EntryFilters, e: SavedEntry) {
    && e.isPage == f.isPage
    && (f.start.IsZero() || e.publishDate.instant > f.end.instant)
    && (f.end.IsZero() || e.publishDate.instant < f.end.instant)
    && (f.includeHidden || !e.isHidden)
  }

  /** Order("-PublishDate"), ties broken by key as the datastore does. */
  predicate NewerFirst(a: SavedEntry, b: SavedEntry) {
    || a.publishDate.instant > b.publishDate.instant
    || (a.publishDate.instant == b.publishDate.instant && StrLe(a.slug, b.slug))
  }

  lemma NewerFirstOrders()
    ensures TotalPreorder(NewerFirst)
  {
    forall a, b
      ensures NewerFirst(a, b) || NewerFirst(b, a)
    {
      StrLeTotal(a.slug, b.slug);
    }
    forall a, b, c | NewerFirst(a, b) && NewerFirst(b, c)
      ensures NewerFirst(a, c)
    {
      if a.publishDate.instant == b.publishDate.instant == c.publishDate.instant {
        StrLeTransitive(a.slug, b.slug, c.slug);
      }
    }
  }

  /** What the filters guarantee about every entry they keep. */
  lemma Matched(r: seq<SavedEntry>, f: EntryFilters)
    requires forall i :: 0 <= i < |r| ==> Matches(f, r[i])
    ensures forall i :: 0 <= i < |r| ==> r[i].isPage == f.isPage
    ensures forall i :: 0 <= i < |r| ==> f.includeHidden || !r[i].isHidden
    ensures forall i :: 0 <= i < |r| ==> f.start.IsZero() || r[i].publishDate.instant > f.start.instant
    ensures forall i :: 0 <= i < |r| ==> f.end.IsZero() || r[i].publishDate.instant < f.end.instant
  {
  }

  lemma MatchedAsWritten(r: seq<SavedEntry>, f: EntryFilters)
    requires forall i :: 0 <= i < |r| ==> MatchesAsWritten(f, r[i])
    ensures forall i :: 0 <= i < |r| ==> r[i].isPage == f.isPage
    ensures forall i :: 0 <= i < |r| ==> f.includeHidden || !r[i].isHidden
    ensures forall i :: 0 <= i < |r| ==> f.start.IsZero() || r[i].publishDate.instant > f.end.instant
    ensures forall i :: 0 <= i < |r| ==> f.end.IsZero() || r[i].publishDate.instant < f.end.instant
  {
  }

  /** Sorted newest first means publish dates never increase. */
  lemma NewestFirst(r: seq<SavedEntry>)
    requires SortedBy(r, NewerFirst)
    ensures forall i, j :: 0 <= i < j < |r| ==> r[i].publishDate.instant >= r[j].publishDate.instant
  {
  }

  /** A Count of 0 stands for the configured entries_per_page. */
  function EffectiveCount(q: EntryQuery, perPage: int): int {
    if q.count == 0 then perPage else q.count
  }

  /** Every entry the filters keep, newest first: the result set that
      Offset and Count cut a page from. */
  function MatchingEntries(store: seq<SavedEntry>, f: EntryFilters): (r: seq<SavedEntry>)
    ensures forall e :: e in r <==> e in store && Matches(f, e)
    ensures multiset(r) == multiset(Datastore.Filter(store, f, Matches))
    ensures SortedBy(r, NewerFirst)
    ensures forall i, j :: 0 <= i < j < |r| ==> r[i].publishDate.instant >= r[j].publishDate.instant
    ensures |r| <= |store|
  {
    NewerFirstOrders();
    var r := Datastore.Ordered(store, f, Matches, NewerFirst);
    assert SortedBy(r, NewerFirst);
    r
  }

  /** GetEntries, with a non-zero Start compared against Start. */
  function GetEntries(store: seq<SavedEntry>, q: EntryQuery, perPage: int): (r: seq<SavedEntry>)
    ensures forall i :: 0 <= i < |r| ==> r[i].isPage == q.isPage
    ensures forall i :: 0 <= i < |r| ==> q.includeHidden || !r[i].isHidden
    ensures forall i :: 0 <= i < |r| ==> q.start.IsZero() || r[i].publishDate.instant > q.start.instant
    ensures forall i :: 0 <= i < |r| ==> q.end.IsZero() || r[i].publishDate.instant < q.end.instant
    ensures forall i, j :: 0 <= i < j < |r| ==> r[i].publishDate.instant >= r[j].publishDate.instant
    ensures EffectiveCount(q, perPage) >= 0 ==> |r| <= EffectiveCount(q, perPage)
    ensures multiset(r) <= multiset(store)
  {
    NewerFirstOrders();
    var r := Datastore.Query(store, FiltersOf(q), Matches, NewerFirst, q.offset, EffectiveCount(q, perPage));
    Matched(r, FiltersOf(q));
    NewestFirst(r);
    r
  }

  /** GetEntries as written: a non-zero Start filters on PublishDate > End. */
  function GetEntriesAsWritten(store: seq<SavedEntry>, q: EntryQuery, perPage: int): (r: seq<SavedEntry>)
    ensures forall i :: 0 <= i < |r| ==> r[i].isPage == q.isPage
    ensures forall i :: 0 <= i < |r| ==> q.includeHidden || !r[i].isHidden
    ensures forall i :: 0 <= i < |r| ==> q.start.IsZero() || r[i].publishDate.instant > q.end.instant
    ensures forall i :: 0 <= i < |r| ==> q.end.IsZero() || r[i].publishDate.instant < q.end.instant
    ensures forall i, j :: 0 <= i < j < |r| ==> r[i].publishDate.instant >= r[j].publishDate.instant
    ensures EffectiveCount(q, perPage) >= 0 ==> |r| <= EffectiveCount(q, perPage)
    ensures multiset(r) <= multiset(store)
  {
    NewerFirstOrders();
    var r := Datastore.Query(store, FiltersOf(q), MatchesAsWritten, NewerFirst, q.offset, EffectiveCount(q, perPage));
    MatchedAsWritten(r, FiltersOf(q));
    NewestFirst(r);
    r
  }

  /** A GetEntries result is the page that Offset and Count cut from all
      matching entries, newest first. */
  lemma GetEntriesIsPageOfMatches(store: seq<SavedEntry>, q: EntryQuery, perPage: int)
    ensures GetEntries(store, q, perPage)
            == Datastore.Window(MatchingEntries(store, FiltersOf(q)), q.offset, EffectiveCount(q, perPage))
  {
    NewerFirstOrders();
  }

  /** With no Count limit and no Offset, GetEntries returns exactly the stored
      entries its filters accept: in particular, hidden entries are returned
      when IncludeHidden is set. */
  lemma GetEntriesFindsAll(store: seq<SavedEntry>, q: EntryQuery, perPage: int, e: SavedEntry)
    requires EffectiveCount(q, perPage) < 0 || EffectiveCount(q, perPage) >= |store|
    requires q.offset <= 0
    ensures e in GetEntries(store, q, perPage) <==> e in store && Matches(FiltersOf(q), e)
  {
    GetEntriesIsPageOfMatches(store, q, perPage);
  }

  /** Asking for N+1 entries and keeping the first N gives the N-entry
      answer; the extra entry comes back exactly when more than N matching
      entries follow the offset. */
  lemma GetEntriesLookahead(store: seq<SavedEntry>, q: EntryQuery, perPage: int, n: nat)
    requires n >= 1
    ensures var long := GetEntries(store, q.(count := n + 1), perPage);
            (if |long| > n then long[..n] else long) == GetEntries(store, q.(count := n), perPage)
    ensures var m := MatchingEntries(store, FiltersOf(q));
            |GetEntries(store, q.(count := n + 1), perPage)| > n <==> |m| - Datastore.Skipped(|m|, q.offset) > n
  {
    GetEntriesIsPageOfMatches(store, q.(count := n + 1), perPage);
    GetEntriesIsPageOfMatches(store, q.(count := n), perPage);
    Datastore.WindowLookahead(MatchingEntries(store, FiltersOf(q)), q.offset, n);
  }

  /** Page `count` entries long at `offset`, cut from the matches of `q`. */
  lemma GetEntriesPageAt(store: seq<SavedEntry>, q: EntryQuery, perPage: int, offset: nat, count: nat)
    requires count >= 1
    ensures GetEntries(store, q.(offset := offset, count := count), perPage)
            == Datastore.Window(MatchingEntries(store, FiltersOf(q)), offset, count)
  {
    var q' := q.(offset := offset, count := count);
    assert FiltersOf(q') == FiltersOf(q);
    GetEntriesIsPageOfMatches(store, q', perPage);
  }

  /** A zero or negative Offset skips nothing. */
  lemma GetEntriesNonPositiveOffset(store: seq<SavedEntry>, q: EntryQuery, perPage: int)
    requires q.offset <= 0
    ensures GetEntries(store, q, perPage) == GetEntries(store, q.(offset := 0), perPage)
    ensures EffectiveCount(q, perPage) < 0 ==> GetEntries(store, q, perPage) == MatchingEntries(store, FiltersOf(q))
  {
    GetEntriesIsPageOfMatches(store, q, perPage);
    GetEntriesIsPageOfMatches(store, q.(offset := 0), perPage);
  }

  /** The two filter sets agree when neither Start nor End is set, which is
      every query the handlers build. */
  lemma GetEntriesAsWrittenAgreesWithoutBounds(store: seq<SavedEntry>, q: EntryQuery, perPage: int)
    requires q.start.IsZero() && q.end.IsZero()
    ensures GetEntriesAsWritten(store, q, perPage) == GetEntries(store, q, perPage)
  {
    Datastore.FilterAlike(store, FiltersOf(q), Matches, FiltersOf(q), MatchesAsWritten);
  }

  /** As written, a query with both Start and End set returns nothing,
      whatever is stored. */
  lemma AsWrittenStartAndEndSelectNothing(store: seq<SavedEntry>, q: EntryQuery, perPage: int)
    requires !q.start.IsZero() && !q.end.IsZero()
    ensures GetEntriesAsWritten(store, q, perPage) == []
  {
  }

  /** As written, Start does not bound the results from below: a post
      published before Start is returned. */
  lemma AsWrittenIgnoresStart()
    ensures var post := BlankEntry.(slug := "old", publishDate := Time(10, 1, 1));
            var q := EntryQuery(Time(20, 1, 1), ZeroTime, -1, false, false, 0);
            && post.publishDate.instant < q.start.instant
            && GetEntriesAsWritten([post], q, 5) == [post]
            && GetEntries([post], q, 5) == []
  {
    var post := BlankEntry.(slug := "old", publishDate := Time(10, 1, 1));
    var q := EntryQuery(Time(20, 1, 1), ZeroTime, -1, false, false, 0);
    GetEntriesFindsAllAsWritten([post], q, 5, post);
  }

  lemma GetEntriesFindsAllAsWritten(store: seq<SavedEntry>, q: EntryQuery, perPage: int, e: SavedEntry)
    requires EffectiveCount(q, perPage) < 0 && q.offset <= 0
    requires e in store && MatchesAsWritten(FiltersOf(q), e)
    ensures e in GetEntriesAsWritten(store, q, perPage)
  {
    NewerFirstOrders();
    var m := Datastore.Ordered(store, FiltersOf(q), MatchesAsWritten, NewerFirst);
    assert GetEntriesAsWritten(store, q, perPage) == Datastore.Window(m, q.offset, EffectiveCount(q, perPage));
  }

  // ---------------------------------------------------------------------------
  // Single entries
  // ---------------------------------------------------------------------------

  /** GetSingleEntry: the entry stored under a slug. */
  function GetSingleEntry(store: seq<SavedEntry>, slug: string): (r: Datastore.Result<SavedEntry>)
    ensures r.Ok? ==> r.value in store && r.value.slug == slug
    ensures slug == "" ==> r == Datastore.Err(Datastore.InvalidKey)
    ensures slug != "" ==> (r == Datastore.Err(Datastore.NoSuchEntity) <==> forall e :: e in store ==> e.slug != slug)
    ensures slug != "" ==> (r.Ok? <==> exists e :: e in store && e.slug == slug)
  {
    Datastore.Get(store, slug, EntryKey)
  }

  // ---------------------------------------------------------------------------
  // Links
  // ---------------------------------------------------------------------------

  /** Order("Order").Order("Title"), then by key. */
  predicate LinkBefore(a: SavedLink, b: SavedLink) {
    || a.order < b.order
    || (a.order == b.order && a.title != b.title && StrLe(a.title, b.title))
    || (a.order == b.order && a.title == b.title && StrLe(a.url, b.url))
  }

  lemma LinkBeforeOrders()
    ensures TotalPreorder(LinkBefore)
  {
    forall a, b
      ensures LinkBefore(a, b) || LinkBefore(b, a)
    {
      StrLeTotal(a.title, b.title);
      StrLeTotal(a.url, b.url);
    }
    forall a, b, c | LinkBefore(a, b) && LinkBefore(b, c)
      ensures LinkBefore(a, c)
    {
      if a.order == b.order == c.order {
        if a.title != b.title && StrLe(a.title, b.title) && b.title != c.title && StrLe(b.title, c.title) {
          StrLeTransitive(a.title, b.title, c.title);
          if a.title == c.title {
            StrLeAntisymmetric(a.title, b.title);
          }
        } else if a.title == b.title && b.title == c.title {
          StrLeTransitive(a.url, b.url, c.url);
        }
      }
    }
  }

  /** The links query has no filter. */
  predicate AnyLink(u: (), l: SavedLink) {
    true
  }

  /** GetLinks: every stored link, by Order, then Title. */
  function GetLinks(links: seq<SavedLink>): (r: seq<SavedLink>)
    ensures multiset(r) == multiset(links)
    ensures forall i, j :: 0 <= i < j < |r| ==> r[i].order <= r[j].order
    ensures forall i, j :: 0 <= i < j < |r| && r[i].order == r[j].order ==> StrLe(r[i].title, r[j].title)
  {
    LinkBeforeOrders();
    var r := Datastore.Query(links, (), AnyLink, LinkBefore, 0, -1);
    forall i, j | 0 <= i < j < |r|
      ensures r[i].order <= r[j].order
      ensures r[i].order == r[j].order ==> StrLe(r[i].title, r[j].title)
    {
      assert LinkBefore(r[i], r[j]);
      StrLeTotal(r[i].title, r[i].title);
    }
    r
  }
}

=== FILE: datastore.dfy ===
/** The App Engine datastore as the blog uses it, held in memory: a collection
    of entities with a string key (an entity whose key is empty gets a fresh
    numeric id instead), looked up by key, written by Put, and queried with
    filter, sort order, offset and limit. */
module Datastore {
  import opened GoText
  import opened Sorting

  datatype Error =
    | NoSuchEntity   // datastore.ErrNoSuchEntity
    | InvalidKey     // an incomplete key (empty string id) cannot be fetched

  datatype Result<+T> = Ok(value: T) | Err(error: Error)

  /** No two entities share a (non-empty) key. */
  predicate KeyedUniquely<T>(s: seq<T>, key: T -> string) {
    forall i, j :: 0 <= i < j < |s| && key(s[i]) != "" ==> key(s[i]) != key(s[j])
  }

  /** Position of the first entity with key `k`, or -1. */
  function FirstWithKey<T>(s: seq<T>, k: string, key: T -> string): (i: int)
    ensures -1 <= i < |s|
    ensures i >= 0 ==> key(s[i]) == k && forall j :: 0 <= j < i ==> key(s[j]) != k
    ensures i < 0 <==> forall j :: 0 <= j < |s| ==> key(s[j]) != k
    decreases |s|
  {
    if |s| == 0 then -1
    else if key(s[0]) == k then 0
    else
      var i := FirstWithKey(s[1..], k, key);
      assert forall j :: 1 <= j < |s| ==> s[j] == s[1..][j - 1];
      if i < 0 then -1 else i + 1
  }

  /** Two sequences that hold an entity with key `k` at the same positions
      agree on where the first one is. */
  lemma FirstWithKeySame<T>(s: seq<T>, r: seq<T>, k: string, key: T -> string)
    requires |s| <= |r|
    requires forall j :: 0 <= j < |s| ==> (key(r[j]) == k <==> key(s[j]) == k)
    requires forall j :: |s| <= j < |r| ==> key(r[j]) != k
    ensures FirstWithKey(r, k, key) == FirstWithKey(s, k, key)
  {
    var a, b := FirstWithKey(s, k, key), FirstWithKey(r, k, key);
    if a >= 0 {
      assert key(r[a]) == k;
    }
    if b >= 0 {
      assert key(s[b]) == k;
    }
  }

  /** datastore.Get: fetch the entity stored under a key. */
  function Get<T>(s: seq<T>, k: string, key: T -> string): (r: Result<T>)
    ensures k == "" ==> r == Err(InvalidKey)
    ensures r.Ok? ==> r.value in s && key(r.value) == k
    ensures k != "" ==> (r == Err(NoSuchEntity) <==> forall x :: x in s ==> key(x) != k)
    ensures k != "" ==> (r.Ok? <==> exists x :: x in s && key(x) == k)
  {
    if k == "" then Err(InvalidKey)
    else
      var i := FirstWithKey(s, k, key);
      if i < 0 then Err(NoSuchEntity) else Ok(s[i])
  }

  /** In a uniquely keyed store, Get by an entity's (non-empty) key finds
      that entity. */
  lemma GetStored<T>(s: seq<T>, x: T, key: T -> string)
    requires KeyedUniquely(s, key) && x in s && key(x) != ""
    ensures Get(s, key(x), key) == Ok(x)
  {
    var j :| 0 <= j < |s| && s[j] == x;
    var i := FirstWithKey(s, key(x), key);
    assert i >= 0;
    assert i == j;
  }

  /** datastore.Put: an entity with a key replaces the one stored under that
      key, or is added; an entity with an empty key is always added. */
  function Put<T>(s: seq<T>, x: T, key: T -> string): (r: seq<T>)
    ensures KeyedUniquely(s, key) ==> KeyedUniquely(r, key)
    ensures KeyedUniquely(s, key) && key(x) != "" ==> Get(r, key(x), key) == Ok(x)
    ensures forall k {:trigger Get(r, k, key)} :: k != key(x) ==> Get(r, k, key) == Get(s, k, key)
    ensures x in r
    ensures forall y :: y in r ==> y == x || y in s
    ensures forall y :: y in s && (key(x) == "" || key(y) != key(x)) ==> y in r
    ensures key(x) == "" ==> r == s + [x]
    ensures Get(s, key(x), key).Ok? ==>
              multiset(r) + multiset{Get(s, key(x), key).value} == multiset(s) + multiset{x}
    ensures !Get(s, key(x), key).Ok? ==> multiset(r) == multiset(s) + multiset{x}
  {
    var i := if key(x) == "" then -1 else FirstWithKey(s, key(x), key);
    var r := if i < 0 then s + [x] else s[i := x];
    var at := if i < 0 then |s| else i;
    assert r[at] == x;
    forall k | k != key(x)
      ensures FirstWithKey(r, k, key) == FirstWithKey(s, k, key)
    {
      FirstWithKeySame(s, r, k, key);
    }
    assert key(x) != "" ==> FirstWithKey(r, key(x), key) == at;
    forall y | y in s && (key(x) == "" || key(y) != key(x))
      ensures y in r
    {
      var j :| 0 <= j < |s| && s[j] == y;
      assert j != at ==> r[j] == y;
    }
    r
  }

  // ---------------------------------------------------------------------------
  // Queries
  // ---------------------------------------------------------------------------

  /** The entities a query's filters keep, in stored order: `keep(p, x)`
      decides entity `x` under filter settings `p`. */
  function Filter<P, T>(s: seq<T>, p: P, keep: (P, T) -> bool): (r: seq<T>)
    ensures forall i :: 0 <= i < |r| ==> keep(p, r[i])
    ensures forall x :: x in s && keep(p, x) ==> x in r
    ensures |r| <= |s|
    ensures (forall x :: x in s ==> keep(p, x)) ==> r == s
    decreases |s|
  {
    if |s| == 0 then []
    else
      assert s == [s[0]] + s[1..];
      var rest := Filter(s[1..], p, keep);
      if keep(p, s[0]) then [s[0]] + rest else rest
  }

  /** Filtering only drops entities: it never adds or duplicates one. */
  lemma {:induction false} FilterMultiset<P, T>(s: seq<T>, p: P, keep: (P, T) -> bool)
    ensures multiset(Filter(s, p, keep)) <= multiset(s)
    decreases |s|
  {
    if |s| > 0 {
      FilterMultiset(s[1..], p, keep);
      assert s == [s[0]] + s[1..];
    }
  }

  /** Filters that decide alike keep the same entities. */
  lemma {:induction false} FilterAlike<P, Q, T>(s: seq<T>, p: P, keep: (P, T) -> bool, p': Q, keep': (Q, T) -> bool)
    requires forall x :: x in s ==> keep(p, x) == keep'(p', x)
    ensures Filter(s, p, keep) == Filter(s, p', keep')
    decreases |s|
  {
    if |s| > 0 {
      FilterAlike(s[1..], p, keep, p', keep');
    }
  }

  /** How many leading results an offset skips: only a positive offset is
      passed to the query, and it cannot skip more than there are. */
  function Skipped(n: nat, offset: int): (k: nat)
    ensures k <= n
  {
    if offset <= 0 then 0 else if offset < n then offset else n
  }

  /** Query.Offset then Query.Limit: skip, then keep at most `limit` results;
      a negative limit means no limit. */
  function Window<T>(s: seq<T>, offset: int, limit: int): seq<T> {
    var rest := s[Skipped(|s|, offset)..];
    if limit < 0 || limit >= |rest| then rest else rest[..limit]
  }

  /** The window is the slice of `s` after the skipped results, as long as
      the limit and what remains allow. */
  lemma WindowShape<T>(s: seq<T>, offset: int, limit: int)
    ensures var r := Window(s, offset, limit);
            var k := Skipped(|s|, offset);
            && |r| <= |s| - k
            && r == s[k..k + |r|]
            && (limit >= 0 ==> |r| <= limit)
            && (limit < 0 || limit >= |s| - k ==> |r| == |s| - k)
            && (0 <= limit < |s| - k ==> |r| == limit)
  {
  }

  lemma WindowMultiset<T>(s: seq<T>, offset: int, limit: int)
    ensures multiset(Window(s, offset, limit)) <= multiset(s)
  {
    WindowShape(s, offset, limit);
    var k := Skipped(|s|, offset);
    SliceMultiset(s, k, k + |Window(s, offset, limit)|);
  }

  lemma WindowSorted<T>(s: seq<T>, le: (T, T) -> bool, offset: int, limit: int)
    requires SortedBy(s, le)
    ensures SortedBy(Window(s, offset, limit), le)
  {
    WindowShape(s, offset, limit);
    var k := Skipped(|s|, offset);
    SortedSlice(s, le, k, k + |Window(s, offset, limit)|);
  }

  /** Asking for one result more than `n` and keeping the first `n` gives
      the `n`-result window; the extra result is there exactly when more
      than `n` results follow the offset. */
  lemma WindowLookahead<T>(s: seq<T>, offset: int, n: nat)
    ensures var long := Window(s, offset, n + 1);
            (if |long| > n then long[..n] else long) == Window(s, offset, n)
    ensures |Window(s, offset, n + 1)| > n <==> |s| - Skipped(|s|, offset) > n
  {
  }

  /** Consecutive windows tile: `b` results from `a` followed by `c` results
      from `a + b` are the `b + c` results from `a`. */
  lemma WindowsTile<T>(s: seq<T>, a: nat, b: nat, c: nat)
    ensures Window(s, a, b) + Window(s, a + b, c) == Window(s, a, b + c)
  {
    var k := Skipped(|s|, a);
    var rest := s[k..];
    if |rest| <= b {
      // the first window already runs to the end
      assert Skipped(|s|, a + b) == |s|;
      assert Window(s, a + b, c) == [];
    } else {
      assert Skipped(|s|, a + b) == k + b;
      var after := s[k + b..];
      assert after == rest[b..];
      var m := if c >= |after| then |after| else c;
      assert Window(s, a + b, c) == after[..m];
      PrefixConcat(rest, b, m);
    }
  }

  lemma PrefixConcat<T>(t: seq<T>, b: nat, m: nat)
    requires b + m <= |t|
    ensures t[..b] + t[b..][..m] == t[..b + m]
  {
  }

  /** All entities the filters keep, sorted: the result set before offset and
      limit. */
  function Ordered<P, T(!new)>(s: seq<T>, p: P, keep: (P, T) -> bool, le: (T, T) -> bool): (r: seq<T>)
    requires TotalPreorder(le)
    ensures SortedBy(r, le)
    ensures multiset(r) == multiset(Filter(s, p, keep))
    ensures forall x :: x in r <==> x in s && keep(p, x)
    ensures |r| <= |s|
  {
    var f := Filter(s, p, keep);
    var r := Sort(f, le);
    FilterMultiset(s, p, keep);
    assert |r| == |multiset(r)| == |multiset(f)| == |f|;
    assert forall x :: x in r <==> x in multiset(f);
    r
  }

  /** A datastore query: keep the entities the filters accept, sort them,
      then apply offset and limit. */
  function Query<P, T(!new)>(s: seq<T>, p: P, keep: (P, T) -> bool, le: (T, T) -> bool, offset: int, limit: int): (r: seq<T>)
    requires TotalPreorder(le)
    ensures forall i :: 0 <= i < |r| ==> keep(p, r[i])
    ensures SortedBy(r, le)
    ensures multiset(r) <= multiset(s)
    ensures limit >= 0 ==> |r| <= limit
    ensures (forall x :: x in s ==> keep(p, x)) && offset <= 0 && limit < 0 ==> multiset(r) == multiset(s)
  {
    var matches := Ordered(s, p, keep, le);
    QueryKeeps(matches, p, keep, offset, limit);
    QueryMultiset(s, p, keep, le, offset, limit);
    WindowSorted(matches, le, offset, limit);
    WindowShape(matches, offset, limit);
    Window(matches, offset, limit)
  }

  lemma QueryKeeps<P, T>(matches: seq<T>, p: P, keep: (P, T) -> bool, offset: int, limit: int)
    requires forall i :: 0 <= i < |matches| ==> keep(p, matches[i])
    ensures forall i :: 0 <= i < |Window(matches, offset, limit)| ==> keep(p, Window(matches, offset, limit)[i])
  {
    var r := Window(matches, offset, limit);
    var k := Skipped(|matches|, offset);
    WindowShape(matches, offset, limit);
    forall i | 0 <= i < |r|
      ensures keep(p, r[i])
    {
      assert r[i] == matches[k + i];
    }
  }

  lemma QueryMultiset<P, T(!new)>(s: seq<T>, p: P, keep: (P, T) -> bool, le: (T, T) -> bool, offset: int, limit: int)
    requires TotalPreorder(le)
    ensures var r := Window(Ordered(s, p, keep, le), offset, limit);
            && multiset(r) <= multiset(s)
            && ((forall x :: x in s ==> keep(p, x)) && offset <= 0 && limit < 0 ==> multiset(r) == multiset(s))
  {
    var matches := Ordered(s, p, keep, le);
    FilterMultiset(s, p, keep);
    WindowMultiset(matches, offset, limit);
    WindowShape(matches, offset, limit);
  }
}

=== FILE: gotext.dfy ===
/** Go standard-library text primitives the blog core relies on: byte strings,
    substring search, decimal formatting and parsing, whitespace trimming,
    boolean parsing, UTF-8 encoding and form lookup. */
module GoText {

  newtype byte = x: int | 0 <= x < 256

  /** A Go `[]byte` (or a Go string read as its bytes). */
  type Bytes = seq<byte>

  datatype Option<+T> = None | Some(value: T) {
    function GetOr(default: T): T {
      match this
      case Some(v) => v
      case None => default
    }
  }

  // ---------------------------------------------------------------------------
  // Substring search (bytes.Index / strings.Index / strings.Contains)
  // ---------------------------------------------------------------------------

  /** `sub` occurs in `s` starting at position `i`. */
  predicate OccursAt<T(==)>(s: seq<T>, sub: seq<T>, i: int) {
    0 <= i && i + |sub| <= |s| && s[i..i + |sub|] == sub
  }

  lemma OccursAtTail<T>(s: seq<T>, sub: seq<T>, i: int)
    requires |s| > 0 && 0 <= i
    ensures OccursAt(s[1..], sub, i) <==> OccursAt(s, sub, i + 1)
  {
    if i + |sub| <= |s[1..]| {
      assert s[1..][i..i + |sub|] == s[i + 1..i + 1 + |sub|];
    }
  }

  /** Position of the first occurrence of `sub` in `s`, or -1: Go's Index. */
  function Index<T(==)>(s: seq<T>, sub: seq<T>): (r: int)
    ensures -1 <= r <= |s|
    ensures r >= 0 ==> OccursAt(s, sub, r)
    ensures r >= 0 ==> forall i :: 0 <= i < r ==> !OccursAt(s, sub, i)
    ensures r < 0 <==> forall i :: !OccursAt(s, sub, i)
    decreases |s|
  {
    if |sub| > |s| then -1
    else if s[..|sub|] == sub then
      assert OccursAt(s, sub, 0);
      0
    else
      var k := Index(s[1..], sub);
      assert !OccursAt(s, sub, 0);
      forall i | 1 <= i
        ensures OccursAt(s, sub, i) <==> OccursAt(s[1..], sub, i - 1)
      {
        OccursAtTail(s, sub, i - 1);
      }
      if k < 0 then -1 else k + 1
  }

  /** Go's strings.Contains / bytes.Contains: every sequence contains the empty one. */
  predicate Contains<T(==)>(s: seq<T>, sub: seq<T>) {
    Index(s, sub) >= 0
  }

  lemma ContainsEmpty<T>(s: seq<T>)
    ensures Contains(s, [])
  {
    assert OccursAt(s, [], 0);
  }

  // ---------------------------------------------------------------------------
  // Decimal formatting (fmt's %d) and parsing (strconv.Atoi)
  // ---------------------------------------------------------------------------

  predicate IsDigit(c: char) {
    '0' <= c <= '9'
  }

  function DigitChar(d: int): (c: char)
    requires 0 <= d < 10
    ensures IsDigit(c)
  {
    (('0' as int) + d) as char
  }

  function DigitValue(c: char): (d: nat)
    requires IsDigit(c)
    ensures d < 10
  {
    (c as int) - ('0' as int)
  }

  /** Decimal digits of a natural number, most significant first, no leading zero. */
  function Digits(n: nat): (s: string)
    ensures |s| > 0
    ensures forall i :: 0 <= i < |s| ==> IsDigit(s[i])
    ensures |s| > 1 ==> s[0] != '0'
    ensures n == 0 <==> s == "0"
    decreases n
  {
    if n < 10 then [DigitChar(n)] else Digits(n / 10) + [DigitChar(n % 10)]
  }

  /** The value of a string of decimal digits. */
  function DigitsValue(s: string): nat
    requires forall i :: 0 <= i < |s| ==> IsDigit(s[i])
    decreases |s|
  {
    if |s| == 0 then 0 else DigitsValue(s[..|s| - 1]) * 10 + DigitValue(s[|s| - 1])
  }

  lemma {:induction false} DigitsRoundTrip(n: nat)
    ensures DigitsValue(Digits(n)) == n
    decreases n
  {
    var s := Digits(n);
    if n >= 10 {
      DigitsRoundTrip(n / 10);
      assert s[..|s| - 1] == Digits(n / 10);
    }
  }

  /** fmt.Sprintf("%d", n). */
  function Itoa(n: int): (s: string)
    ensures n >= 0 ==> s == Digits(n)
    ensures n < 0 ==> s == "-" + Digits(-n)
    ensures |s| > 0 && IsDigit(s[|s| - 1])
    ensures forall i :: 0 <= i < |s| ==> s[i] != '/'
  {
    if n < 0 then "-" + Digits(-n) else Digits(n)
  }

  /** strconv.Atoi for values of any size: an optional sign followed by at
      least one decimal digit; anything else is a syntax error (None). */
  function Atoi(s: string): (r: Option<int>)
    ensures r.Some? ==> |s| > 0 && IsDigit(s[|s| - 1])
    ensures (exists i :: 1 <= i < |s| && !IsDigit(s[i])) ==> r == None
    ensures |s| > 0 && !IsDigit(s[0]) && s[0] != '+' && s[0] != '-' ==> r == None
    ensures r.Some? && r.value < 0 ==> s[0] == '-'
    ensures |s| > 0 && (forall i :: 0 <= i < |s| ==> IsDigit(s[i])) ==> r == Some(DigitsValue(s))
    ensures |s| > 1 && (s[0] == '+' || s[0] == '-') && (forall i :: 1 <= i < |s| ==> IsDigit(s[i]))
            ==> r == Some(if s[0] == '-' then 0 - DigitsValue(s[1..]) as int else DigitsValue(s[1..]))
  {
    if |s| == 0 then None
    else
      var neg := s[0] == '-';
      var body := if s[0] == '+' || s[0] == '-' then s[1..] else s;
      if |body| > 0 && forall i :: 0 <= i < |body| ==> IsDigit(body[i]) then
        var v: int := DigitsValue(body);
        Some(if neg then -v else v)
      else None
  }

  /** Formatting then parsing an integer gives it back. */
  lemma ItoaRoundTrip(n: int)
    ensures Atoi(Itoa(n)) == Some(n)
  {
    var s := Itoa(n);
    if n < 0 {
      DigitsRoundTrip(-n);
      assert s[0] == '-' && s[1..] == Digits(-n);
    } else {
      DigitsRoundTrip(n);
      assert s[0] != '+' && s[0] != '-';
    }
  }

  /** fmt.Sprintf("%02d", n): zero-padded to width two. */
  function Pad2(n: int): (s: string)
    ensures 0 <= n < 100 ==> s == [DigitChar(n / 10), DigitChar(n % 10)]
    ensures 0 <= n < 100 ==> Atoi(s) == Some(n)
    ensures |s| > 0 && IsDigit(s[|s| - 1])
    ensures forall i :: 0 <= i < |s| ==> s[i] != '/'
  {
    if 0 <= n < 10 then
      var s := "0" + Itoa(n);
      assert s == ['0', DigitChar(n)];
      assert s[..|s| - 1] == "0" && DigitsValue("0") == 0;
      assert DigitsValue(s) == n;
      s
    else
      assert 10 <= n < 100 ==> Digits(n / 10) == [DigitChar(n / 10)];
      ItoaRoundTrip(n);
      Itoa(n)
  }

  // ---------------------------------------------------------------------------
  // strings.TrimSpace
  // ---------------------------------------------------------------------------

  /** unicode.IsSpace: the Unicode White_Space characters. */
  predicate IsSpace(c: char) {
    c == '\t' || c == '\n' || c == '\U{000B}' || c == '\U{000C}' || c == '\r' || c == ' '
    || c == '\U{0085}' || c == '\U{00A0}' || c == '\U{1680}'
    || ('\U{2000}' <= c <= '\U{200A}')
    || c == '\U{2028}' || c == '\U{2029}' || c == '\U{202F}' || c == '\U{205F}'
    || c == '\U{3000}'
  }

  function TrimLeft(s: string): (r: string)
    ensures |r| <= |s| && r == s[|s| - |r|..]
    ensures |r| > 0 ==> !IsSpace(r[0])
    ensures forall i :: 0 <= i < |s| - |r| ==> IsSpace(s[i])
    decreases |s|
  {
    if |s| > 0 && IsSpace(s[0]) then TrimLeft(s[1..]) else s
  }

  function TrimRight(s: string): (r: string)
    ensures |r| <= |s| && r == s[..|r|]
    ensures |r| > 0 ==> !IsSpace(r[|r| - 1])
    ensures forall i :: |r| <= i < |s| ==> IsSpace(s[i])
    decreases |s|
  {
    if |s| > 0 && IsSpace(s[|s| - 1]) then TrimRight(s[..|s| - 1]) else s
  }

  /** `r` is `s[i..]` cut short, with only white space cut away on either side. */
  predicate TrimmedAt(s: string, r: string, i: int) {
    && 0 <= i <= |s| - |r|
    && r == s[i..i + |r|]
    && (forall k :: 0 <= k < i ==> IsSpace(s[k]))
    && (forall k :: i + |r| <= k < |s| ==> IsSpace(s[k]))
  }

  /** strings.TrimSpace: the slice of `s` between its leading and trailing
      white space. */
  function TrimSpace(s: string): (r: string)
    ensures exists i :: TrimmedAt(s, r, i)
    ensures |r| > 0 ==> !IsSpace(r[0]) && !IsSpace(r[|r| - 1])
    ensures r == "" <==> forall k :: 0 <= k < |s| ==> IsSpace(s[k])
  {
    var l := TrimLeft(s);
    var r := TrimRight(l);
    var i := |s| - |l|;
    assert TrimmedAt(s, r, i);
    r
  }

  // ---------------------------------------------------------------------------
  // strconv.ParseBool and http.Request.FormValue
  // ---------------------------------------------------------------------------

  /** strconv.ParseBool: the accepted spellings of true and false, else an error. */
  function ParseBool(s: string): (r: Option<bool>)
    ensures r == Some(true) <==> s in {"1", "t", "T", "TRUE", "true", "True"}
    ensures r == Some(false) <==> s in {"0", "f", "F", "FALSE", "false", "False"}
  {
    if s in {"1", "t", "T", "TRUE", "true", "True"} then Some(true)
    else if s in {"0", "f", "F", "FALSE", "false", "False"} then Some(false)
    else None
  }

  /** A submitted form: field name to its (first) value. */
  type Form = map<string, string>

  /** Request.FormValue: a missing field reads as the empty string. */
  function FormValue(form: Form, name: string): string {
    if name in form then form[name] else ""
  }

  // ---------------------------------------------------------------------------
  // UTF-8: the []byte(s) conversion and utf8.DecodeRune's length
  // ---------------------------------------------------------------------------

  function EncodeChar(c: char): (b: Bytes)
    ensures 1 <= |b| <= 4
    ensures (c as int) < 0x80 ==> b == [c as int as byte]
  {
    var n := c as int;
    if n < 0x80 then [n as byte]
    else if n < 0x800 then [(0xC0 + n / 64) as byte, (0x80 + n % 64) as byte]
    else if n < 0x10000 then
      [(0xE0 + n / 4096) as byte, (0x80 + (n / 64) % 64) as byte, (0x80 + n % 64) as byte]
    else
      [(0xF0 + n / 262144) as byte, (0x80 + (n / 4096) % 64) as byte,
       (0x80 + (n / 64) % 64) as byte, (0x80 + n % 64) as byte]
  }

  /** The conversion []byte(s) of a Go string. */
  function Utf8Encode(s: string): (b: Bytes)
    ensures |b| >= |s|
    ensures |b| == 0 <==> |s| == 0
    decreases |s|
  {
    if |s| == 0 then [] else EncodeChar(s[0]) + Utf8Encode(s[1..])
  }

  /** Length of the first rune as utf8.DecodeRune reports it: the length of a
      well-formed UTF-8 sequence at the head of `p`, or 1 for an invalid byte. */
  function RuneLen(p: Bytes): (n: nat)
    requires |p| > 0
    ensures 1 <= n <= 4 && n <= |p|
  {
    var b0 := p[0];
    if b0 < 0x80 then 1
    else if 0xC2 <= b0 <= 0xDF then
      if |p| >= 2 && 0x80 <= p[1] <= 0xBF then 2 else 1
    else if 0xE0 <= b0 <= 0xEF then
      var lo: byte := if b0 == 0xE0 then 0xA0 else 0x80;
      var hi: byte := if b0 == 0xED then 0x9F else 0xBF;
      if |p| >= 3 && lo <= p[1] <= hi && 0x80 <= p[2] <= 0xBF then 3 else 1
    else if 0xF0 <= b0 <= 0xF4 then
      var lo: byte := if b0 == 0xF0 then 0x90 else 0x80;
      var hi: byte := if b0 == 0xF4 then 0x8F else 0xBF;
      if |p| >= 4 && lo <= p[1] <= hi && 0x80 <= p[2] <= 0xBF && 0x80 <= p[3] <= 0xBF then 4 else 1
    else 1
  }
}

=== FILE: handlers.dfy ===
/** The blog's HTTP handlers as functions of the site state: the archive and
    single-entry pages and the feed behind a versioned read-through page
    cache, and the admin handlers that edit entries and links and flush that
    cache. Template rendering is an input (`render`), as are the request's
    version, whether memcache answers, the signed-in user, the clock and
    whether a datastore write fails. */
module Handlers {
  import opened GoText
  import opened Paths
  import opened Blog
  import Datastore
  import Memcache

  /** The configuration values the handlers read. */
  datatype Config = Config(entriesPerPage: nat, pageCacheTtl: int, subtitle: string)

  /** What the handlers read and write: the two datastore collections and
      the memcache contents. */
  datatype Site = Site(entries: seq<SavedEntry>, links: seq<SavedLink>, cache: Memcache.Cache)

  /** The datastore holds at most one entity per key. */
  predicate Valid(site: Site) {
    Datastore.KeyedUniquely(site.entries, EntryKey) && Datastore.KeyedUniquely(site.links, LinkKey)
  }

  // ---------------------------------------------------------------------------
  // Page cache key
  // ---------------------------------------------------------------------------

  /** The key a rendered page is cached under: the request path and the
      application version, so a new deployment never serves old pages. */
  function PageKey(path: string, version: string): (k: string)
    ensures |k| == |path| + 1 + |version|
    ensures k[..|path|] == path && k[|path|] == '@' && k[|path| + 1..] == version
  {
    path + "@" + version
  }

  /** For one path, distinct versions give distinct keys. */
  lemma PageKeyVersions(path: string, v1: string, v2: string)
    ensures PageKey(path, v1) == PageKey(path, v2) <==> v1 == v2
  {
    if PageKey(path, v1) == PageKey(path, v2) {
      assert v1 == PageKey(path, v1)[|path| + 1..];
      assert v2 == PageKey(path, v2)[|path| + 1..];
    }
  }

  /** Across paths the key is not injective: a path may itself hold "@". */
  lemma PageKeyPathsCollide()
    ensures "/a@b" != "/a" && PageKey("/a@b", "c") == PageKey("/a", "b@c")
  {
  }

  // ---------------------------------------------------------------------------
  // Archive page numbers
  // ---------------------------------------------------------------------------

  /** The URL of archive page `n` under `dir`: page 1 is `dir` itself. */
  function PageURL(dir: string, n: int): (u: string)
    ensures n == 1 ==> u == dir
    ensures n != 1 ==> |u| > |dir| && u[..|dir|] == dir && Atoi(u[|dir|..]) == Some(n)
  {
    ItoaRoundTrip(n);
    assert n != 1 ==> (dir + Itoa(n))[|dir|..] == Itoa(n);
    if n == 1 then dir else dir + Itoa(n)
  }

  /** What rootHandler reads from the request path: the path it goes on to
      serve, the page number, and the link to the previous page. */
  datatype PageRef = PageRef(path: string, pageCount: int, previousURL: string)

  /** rootHandler's page-number parsing: a last element that parses to n > 1
      selects page n of the parent path; anything else is page 1 of the path
      itself. */
  function ParsePage(urlPath: string): (r: PageRef)
    requires IsServedPath(urlPath)
    ensures r.pageCount >= 1
    ensures r.pageCount > 1 <==> Atoi(Base(urlPath)).GetOr(0) > 1
    ensures r.pageCount > 1 ==> Atoi(Base(urlPath)) == Some(r.pageCount) && r.path == Dir(urlPath)
    ensures r.pageCount > 1 ==> r.previousURL == PageURL(r.path, r.pageCount - 1)
    ensures r.pageCount == 1 ==> r.path == urlPath && r.previousURL == ""
  {
    var n := Atoi(Base(urlPath)).GetOr(0);
    if n > 1 then
      var dir := Dir(urlPath);
      PageRef(dir, n, if n > 2 then dir + Itoa(n - 1) else dir)
    else
      PageRef(urlPath, 1, "")
  }

  /** Following the links: the URL of archive page n is parsed back to page
      n of "/", whose previous link is the URL of page n - 1. */
  lemma ParsePageURL(n: int)
    requires n >= 1
    ensures IsServedPath(PageURL("/", n))
    ensures ParsePage(PageURL("/", n)) == PageRef("/", n, if n == 1 then "" else PageURL("/", n - 1))
  {
    if n > 1 {
      var s := Itoa(n);
      NumberNotDots(s);
      ItoaRoundTrip(n);
      NumberPage(s, n);
    } else {
      assert TrimTrailingSlashes("/") == "";
      assert Base("/") == "/";
    }
  }

  /** "/" followed by an element that parses as n > 1 is page n of "/". */
  lemma NumberPage(s: string, n: int)
    requires s != "" && Free(s, '/') && !IsDots(s)
    requires n > 1 && Atoi(s) == Some(n)
    ensures IsServedPath("/" + s)
    ensures ParsePage("/" + s) == PageRef("/", n, if n > 2 then "/" + Itoa(n - 1) else "/")
  {
    CleanRestOne(s);
    assert "/" + s == "" + "/" + s;
    BaseOfChild("", s);
    DirOfChild("", s);
  }

  /** With a trailing slash, "/" followed by a number is not an archive page:
      its parent is the number itself, so rootHandler looks up an entry
      whose slug is the number. */
  lemma NumberSlashIsEntry(s: string, n: int)
    requires s != "" && Free(s, '/') && !IsDots(s)
    requires n > 1 && Atoi(s) == Some(n)
    ensures IsServedPath("/" + s + "/")
    ensures Base("/" + s + "/") == s
    ensures ParsePage("/" + s + "/").path == "/" + s
    ensures ParsePage("/" + s + "/").pageCount == n
  {
    CleanRestCons(s, "");
    assert "/" + s + "/" == "" + "/" + s + "/";
    assert ("/" + s + "/")[1..] == s + "/" + "";
    BaseOfChild("", s);
    DirOfChildDir("", s);
  }

  // ---------------------------------------------------------------------------
  // Archive and feed queries
  // ---------------------------------------------------------------------------

  /** The filters of the archive and the feed: posts that are not hidden. */
  const VisiblePosts: EntryFilters := EntryFilters(ZeroTime, ZeroTime, false, false)

  /** The archive's query for page n: one entry more than a page holds, after
      the entries of the n - 1 earlier pages. */
  function ArchiveQuery(perPage: nat, pageCount: int): (q: EntryQuery)
    requires pageCount >= 1
    ensures FiltersOf(q) == VisiblePosts
    ensures q.offset >= 0 && q.count == perPage + 1
  {
    ListQuery(false, perPage + 1, perPage * (pageCount - 1), false)
  }

  datatype ArchivePage = ArchivePage(entries: seq<SavedEntry>, nextURL: string)

  /** The archive page: the lookahead entry, if it came back, is dropped and
      turns into a link to the next page. */
  function Archive(store: seq<SavedEntry>, perPage: nat, path: string, pageCount: int): (r: ArchivePage)
    requires pageCount >= 1
    ensures r.entries
            == Datastore.Window(MatchingEntries(store, VisiblePosts), perPage * (pageCount - 1), perPage)
    ensures r.nextURL != "" <==> |MatchingEntries(store, VisiblePosts)| > perPage * pageCount
    ensures r.nextURL != "" ==> r.nextURL == PageURL(path, pageCount + 1)
  {
    var q := ArchiveQuery(perPage, pageCount);
    var entries := GetEntries(store, q, perPage);
    ArchiveIsLookahead(store, perPage, pageCount);
    if |entries| > perPage then ArchivePage(entries[..perPage], path + Itoa(pageCount + 1))
    else ArchivePage(entries, "")
  }

  lemma ArchiveIsLookahead(store: seq<SavedEntry>, perPage: nat, pageCount: int)
    requires pageCount >= 1
    ensures var m := MatchingEntries(store, VisiblePosts);
            var offset := perPage * (pageCount - 1);
            var long := GetEntries(store, ArchiveQuery(perPage, pageCount), perPage);
            && (if |long| > perPage then long[..perPage] else long) == Datastore.Window(m, offset, perPage)
            && (|long| > perPage <==> |m| > perPage * pageCount)
  {
    var m := MatchingEntries(store, VisiblePosts);
    var offset := perPage * (pageCount - 1);
    GetEntriesIsPageOfMatches(store, ArchiveQuery(perPage, pageCount), perPage);
    Datastore.WindowLookahead(m, offset, perPage);
    assert offset + perPage == perPage * pageCount;
  }

  /** The feed's query: the newest page of visible posts. */
  function FeedEntries(store: seq<SavedEntry>, perPage: nat): (r: seq<SavedEntry>)
    ensures r == Datastore.Window(MatchingEntries(store, VisiblePosts), 0, perPage)
  {
    var q := ListQuery(false, perPage, 0, false);
    GetEntriesIsPageOfMatches(store, q, perPage);
    GetEntries(store, q, perPage)
  }

  // ---------------------------------------------------------------------------
  // Views and the read-through page cache
  // ---------------------------------------------------------------------------

  datatype Template = ArchiveTpl | EntryTpl | PageTpl | FeedTpl

  /** What a template is rendered with. */
  datatype View = View(
    template: Template,
    title: string,
    entries: seq<SavedEntry>,
    links: seq<SavedLink>,
    previousURL: string,
    nextURL: string)

  /** What rootHandler renders for a path, or None for "not found". */
  function RootView(site: Site, cfg: Config, urlPath: string): (r: Option<View>)
    requires IsServedPath(urlPath)
    ensures r.Some? ==> r.value.links == GetLinks(site.links)
                        && r.value.previousURL == ParsePage(urlPath).previousURL
    ensures ParsePage(urlPath).path == "/" ==>
              var n := ParsePage(urlPath).pageCount;
              && r.Some? && r.value.template == ArchiveTpl && r.value.title == cfg.subtitle
              && r.value.entries == Datastore.Window(MatchingEntries(site.entries, VisiblePosts),
                                                     cfg.entriesPerPage * (n - 1), cfg.entriesPerPage)
              && (r.value.nextURL != "" <==> |MatchingEntries(site.entries, VisiblePosts)| > cfg.entriesPerPage * n)
    ensures ParsePage(urlPath).path != "/" ==>
              && (r.None? <==> GetSingleEntry(site.entries, Base(urlPath)).Err?)
              && (r.Some? ==> var e := GetSingleEntry(site.entries, Base(urlPath)).value;
                              && r.value.entries == [e] && r.value.title == e.title && r.value.nextURL == ""
                              && (r.value.template == PageTpl <==> e.isPage)
                              && (r.value.template == EntryTpl <==> !e.isPage))
  {
    var page := ParsePage(urlPath);
    var links := GetLinks(site.links);
    if page.path == "/" then
      var a := Archive(site.entries, cfg.entriesPerPage, page.path, page.pageCount);
      Some(View(ArchiveTpl, cfg.subtitle, a.entries, links, page.previousURL, a.nextURL))
    else
      match GetSingleEntry(site.entries, Base(urlPath))
      case Err(_) => None
      case Ok(e) => Some(View(if e.isPage then PageTpl else EntryTpl, e.title, [e], links, page.previousURL, ""))
  }

  /** "/2" is page 2 of "/", whose previous page is "/". */
  lemma SecondPageURL()
    ensures IsServedPath("/2") && ParsePage("/2") == PageRef("/", 2, "/")
  {
    assert Itoa(2) == "2" by {
      assert Digits(2) == [DigitChar(2)];
    }
    ParsePageURL(2);
  }

  /** Seven visible posts at five per page: page 2 shows the sixth and
      seventh posts and has no next page. */
  lemma ArchiveSecondPage(store: seq<SavedEntry>)
    requires |MatchingEntries(store, VisiblePosts)| == 7
    ensures Archive(store, 5, "/", 2) == ArchivePage(MatchingEntries(store, VisiblePosts)[5..7], "")
  {
    var m := MatchingEntries(store, VisiblePosts);
    assert Datastore.Window(m, 5, 5) == m[5..7];
  }

  /** What feedHandler renders. */
  function FeedView(site: Site, cfg: Config): (v: View)
    ensures v.template == FeedTpl && v.title == "Atom Feed"
    ensures v.entries == Datastore.Window(MatchingEntries(site.entries, VisiblePosts), 0, cfg.entriesPerPage)
    ensures |v.entries| <= cfg.entriesPerPage
    ensures v.links == [] && v.previousURL == "" && v.nextURL == ""
  {
    Datastore.WindowShape(MatchingEntries(site.entries, VisiblePosts), 0, cfg.entriesPerPage);
    View(FeedTpl, "Atom Feed", FeedEntries(site.entries, cfg.entriesPerPage), [], "", "")
  }

  datatype Response = Body(bytes: Bytes) | NotFound

  /** A handled request: the response, the view rendered for it (None when
      nothing was rendered) and the cache afterwards. */
  datatype Served = Served(response: Response, rendered: Option<View>, cache: Memcache.Cache)

  /** The read-through cache both page handlers use: a hit is written back
      as it is; a miss, or a memcache error, renders the view and offers the
      result to the cache with Add. "Not found" is neither rendered nor cached.
      `getService` and `addService` say whether memcache answers the Get and
      the Add of this request. */
  function ReadThrough(c: Memcache.Cache, key: string, getService: Memcache.Service, addService: Memcache.Service,
                       view: Option<View>, render: View -> Bytes, ttl: int): (r: Served)
    ensures Memcache.Get(c, key, getService).Hit? ==>
              r == Served(Body(c.items[key].value), None, c)
    ensures !Memcache.Get(c, key, getService).Hit? ==>
              && r.rendered == view
              && (view.None? ==> r.response == NotFound && r.cache == c)
              && (view.Some? ==> r.response == Body(render(view.value)))
    ensures !Memcache.Get(c, key, getService).Hit? && view.Some? && addService.Up? && key !in c.items ==>
              r.cache.items == c.items[key := Memcache.Item(render(view.value), ttl)]
    ensures addService.Down? ==> r.cache == c
    ensures forall k :: k in c.items ==> k in r.cache.items && r.cache.items[k] == c.items[k]
    ensures forall k :: k in r.cache.items && k != key ==> k in c.items
    ensures addService.Up? && r.response.Body? ==> key in r.cache.items
  {
    match Memcache.Get(c, key, getService)
    case Hit(value) => Served(Body(value), None, c)
    case _ =>
      match view
      case None => Served(NotFound, None, c)
      case Some(w) =>
        var content := render(w);
        Served(Body(content), Some(w), Memcache.StoreInCache(c, key, content, ttl, addService).0)
  }

  /** rootHandler. */
  function RootHandler(site: Site, cfg: Config, version: string,
                       getService: Memcache.Service, addService: Memcache.Service,
                       urlPath: string, render: View -> Bytes): (r: Served)
    requires IsServedPath(urlPath)
    ensures Memcache.Get(site.cache, PageKey(urlPath, version), getService).Hit? ==> r.rendered.None?
    ensures !Memcache.Get(site.cache, PageKey(urlPath, version), getService).Hit? ==>
              r.rendered == RootView(site, cfg, urlPath)
    ensures r.response.Body? && r.rendered.Some? ==> r.response.bytes == render(r.rendered.value)
    ensures r.response.NotFound? ==> r.cache == site.cache
  {
    ReadThrough(site.cache, PageKey(urlPath, version), getService, addService,
                RootView(site, cfg, urlPath), render, cfg.pageCacheTtl)
  }

  /** feedHandler: like rootHandler, but the feed is cached with no expiry. */
  function FeedHandler(site: Site, cfg: Config, version: string,
                       getService: Memcache.Service, addService: Memcache.Service,
                       urlPath: string, render: View -> Bytes): (r: Served)
    ensures r.response.Body?
    ensures Memcache.Get(site.cache, PageKey(urlPath, version), getService).Hit? <==> r.rendered.None?
    ensures r.rendered.Some? ==>
              && r.rendered.value.template == FeedTpl
              && r.rendered.value.entries
                 == Datastore.Window(MatchingEntries(site.entries, VisiblePosts), 0, cfg.entriesPerPage)
    ensures r.rendered.Some? && addService.Up? && PageKey(urlPath, version) !in site.cache.items ==>
              r.cache.items == site.cache.items[PageKey(urlPath, version) := Memcache.Item(r.response.bytes, 0)]
  {
    ReadThrough(site.cache, PageKey(urlPath, version), getService, addService, Some(FeedView(site, cfg)), render, 0)
  }

  /** A page that was served while memcache took the Add is served again,
      byte for byte and without rendering, by the next request for the same
      key whose Get memcache answers, whatever that request would have
      rendered. The first request's Get may have failed, as long as the key
      held nothing. */
  lemma ReadThroughRepeats(c: Memcache.Cache, key: string, get1: Memcache.Service,
                           view1: Option<View>, render1: View -> Bytes, ttl1: int,
                           add2: Memcache.Service, view2: Option<View>, render2: View -> Bytes, ttl2: int)
    requires get1.Up? || key !in c.items
    requires ReadThrough(c, key, get1, Memcache.Up, view1, render1, ttl1).response.Body?
    ensures var first := ReadThrough(c, key, get1, Memcache.Up, view1, render1, ttl1);
            var second := ReadThrough(first.cache, key, Memcache.Up, add2, view2, render2, ttl2);
            second == Served(first.response, None, first.cache)
  {
    var first := ReadThrough(c, key, get1, Memcache.Up, view1, render1, ttl1);
    if !Memcache.Get(c, key, get1).Hit? {
      assert first.cache.items[key].value == first.response.bytes;
    }
  }

  /** The same for rootHandler: once a page was served with memcache up, the
      next request for it gets the same bytes without rendering, even when
      the entries or links changed in between without a flush. */
  lemma RootHandlerRepeats(site: Site, cfg: Config, version: string, urlPath: string,
                           render1: View -> Bytes, render2: View -> Bytes,
                           entries: seq<SavedEntry>, links: seq<SavedLink>)
    requires IsServedPath(urlPath)
    ensures var first := RootHandler(site, cfg, version, Memcache.Up, Memcache.Up, urlPath, render1);
            var second := RootHandler(Site(entries, links, first.cache), cfg, version, Memcache.Up, Memcache.Up, urlPath, render2);
            first.response.Body? ==> second.response == first.response && second.rendered.None?
  {
    var key := PageKey(urlPath, version);
    var first := RootHandler(site, cfg, version, Memcache.Up, Memcache.Up, urlPath, render1);
    if first.response.Body? {
      ReadThroughRepeats(site.cache, key, Memcache.Up, RootView(site, cfg, urlPath), render1, cfg.pageCacheTtl,
                         Memcache.Up, RootView(Site(entries, links, first.cache), cfg, urlPath), render2, cfg.pageCacheTtl);
    }
  }

  // ---------------------------------------------------------------------------
  // Admin: entries
  // ---------------------------------------------------------------------------

  /** Why adminSubmitEntryHandler answers with an error. */
  datatype Rejection = NoContent | NoTitle | PutFailed

  datatype Submission = Rejected(reason: Rejection) | Accepted(entry: SavedEntry)

  /** The entry a submission starts from: a fresh one by the signed-in user
      for a new post, otherwise what GetSingleEntry left in its result (the
      stored entry, or one holding only the slug). */
  function PriorEntry(store: seq<SavedEntry>, form: Form, user: Option<string>, slug: string): (e: SavedEntry)
    ensures FormValue(form, "is_new_post") == "1" ==> e == BlankEntry.(author := user.GetOr(""))
    ensures FormValue(form, "is_new_post") != "1" ==> e.slug == slug
    ensures FormValue(form, "is_new_post") != "1" && slug != "" && (exists x :: x in store && x.slug == slug)
            ==> e in store
    ensures FormValue(form, "is_new_post") != "1" && (slug == "" || forall x :: x in store ==> x.slug != slug)
            ==> e == BlankEntry.(slug := slug)
  {
    if FormValue(form, "is_new_post") == "1" then BlankEntry.(author := user.GetOr(""))
    else
      match GetSingleEntry(store, slug)
      case Ok(e) => e
      case Err(_) => BlankEntry.(slug := slug)
  }

  /** The RelativeURL of an entry: its slug for a page, year/MM/slug for a post. */
  function RelativeURL(isPage: bool, date: Time, slug: string): (u: string)
    ensures isPage ==> u == slug
    ensures !isPage && 0 <= date.month < 100 ==>
              var w := |Itoa(date.year)|;
              && |u| == w + 4 + |slug|
              && Atoi(u[..w]) == Some(date.year) && u[w] == '/'
              && Atoi(u[w + 1..w + 3]) == Some(date.month) && u[w + 3] == '/'
              && u[w + 4..] == slug
  {
    ItoaRoundTrip(date.year);
    var y := Itoa(date.year);
    var u := y + "/" + Pad2(date.month) + "/" + slug;
    assert u[..|y|] == y;
    assert 0 <= date.month < 100 ==> u[|y| + 1..|y| + 3] == Pad2(date.month);
    if isPage then slug else u
  }

  /** A post's URL ends in its slug, so Base gives the slug back. */
  lemma PostURLBase(date: Time, slug: string)
    requires slug != "" && Free(slug, '/')
    ensures Base("/" + RelativeURL(false, date, slug)) == slug
  {
    var dir := "/" + Itoa(date.year) + "/" + Pad2(date.month);
    assert "/" + RelativeURL(false, date, slug) == dir + "/" + slug;
    BaseOfChild(dir, slug);
  }

  /** The entry built from the form, on top of the prior entry. */
  function FormEntry(prior: SavedEntry, form: Form, now: Time): (e: SavedEntry)
    ensures e.author == prior.author
    ensures e.content == Utf8Encode(TrimSpace(FormValue(form, "content")))
    ensures e.title == TrimSpace(FormValue(form, "title"))
    ensures e.slug == TrimSpace(FormValue(form, "slug"))
    ensures e.isHidden <==> FormValue(form, "hidden") == "on"
    ensures e.allowComments <==> FormValue(form, "allow_comments") == "on"
    ensures e.isPage <==> ParseBool(FormValue(form, "is_page")) == Some(true)
    ensures e.publishDate == (if prior.publishDate.IsZero() then now else prior.publishDate)
    ensures !e.publishDate.IsZero() || now.IsZero()
    ensures e.relativeURL == RelativeURL(e.isPage, e.publishDate, e.slug)
  {
    var isPage := ParseBool(FormValue(form, "is_page")).GetOr(false);
    var slug := TrimSpace(FormValue(form, "slug"));
    var date := if prior.publishDate.IsZero() then now else prior.publishDate;
    prior.(
      isHidden := FormValue(form, "hidden") == "on",
      allowComments := FormValue(form, "allow_comments") == "on",
      isPage := isPage,
      content := Utf8Encode(TrimSpace(FormValue(form, "content"))),
      title := TrimSpace(FormValue(form, "title")),
      slug := slug,
      publishDate := date,
      relativeURL := RelativeURL(isPage, date, slug))
  }

  /** adminSubmitEntryHandler: validate, build the entry, Put it under its
      slug and flush the page cache. `putFails` says whether the datastore
      Put fails; `now` is the request's time. */
  function SubmitEntry(site: Site, form: Form, user: Option<string>, now: Time, putFails: bool): (r: (Site, Submission))
    ensures var content := TrimSpace(FormValue(form, "content"));
            var title := TrimSpace(FormValue(form, "title"));
            && (r.1 == Rejected(NoContent) <==> content == "")
            && (r.1 == Rejected(NoTitle) <==> content != "" && title == "")
            && (r.1.Accepted? <==> content != "" && title != "" && !putFails)
    ensures r.1.Rejected? ==> r.0 == site
    ensures r.1.Accepted? ==>
              var slug := TrimSpace(FormValue(form, "slug"));
              && r.1.entry == FormEntry(PriorEntry(site.entries, form, user, slug), form, now)
              && r.0 == Saved(site, r.1.entry)
  {
    var content := TrimSpace(FormValue(form, "content"));
    var title := TrimSpace(FormValue(form, "title"));
    var slug := TrimSpace(FormValue(form, "slug"));
    if |content| == 0 then (site, Rejected(NoContent))
    else if |title| == 0 then (site, Rejected(NoTitle))
    else
      var entry := FormEntry(PriorEntry(site.entries, form, user, slug), form, now);
      if putFails then (site, Rejected(PutFailed))
      else (Saved(site, entry), Accepted(entry))
  }

  /** Resubmitting the form of a stored entry starts from that entry, so
      its author and its publish date (when set) are kept. */
  lemma ResubmitKeepsAuthorAndDate(store: seq<SavedEntry>, form: Form, user: Option<string>, now: Time,
                                   e: SavedEntry)
    requires Datastore.KeyedUniquely(store, EntryKey) && e in store && e.slug != ""
    requires FormValue(form, "is_new_post") != "1"
    ensures PriorEntry(store, form, user, e.slug) == e
    ensures FormEntry(e, form, now).author == e.author
    ensures !e.publishDate.IsZero() ==> FormEntry(e, form, now).publishDate == e.publishDate
  {
    Datastore.GetStored(store, e, EntryKey);
  }

  /** The site after an entry is saved: the entry is Put under its slug and
      the page cache is flushed; the links are untouched. */
  function Saved(site: Site, entry: SavedEntry): Site {
    Site(Datastore.Put(site.entries, entry, EntryKey), site.links, Memcache.Flush(site.cache))
  }

  /** A saved entry is what GetSingleEntry now finds under its slug, and the
      store stays keyed uniquely. */
  lemma SavedEntryStored(site: Site, entry: SavedEntry)
    requires Valid(site)
    ensures Valid(Saved(site, entry))
    ensures entry.slug != "" ==> GetSingleEntry(Saved(site, entry).entries, entry.slug) == Datastore.Ok(entry)
  {
  }

  /** After an entry is saved every page request renders afresh. */
  lemma SavedFlushesPages(site: Site, entry: SavedEntry, cfg: Config, version: string, urlPath: string,
                          render: View -> Bytes)
    requires IsServedPath(urlPath)
    ensures var after := Saved(site, entry);
            RootHandler(after, cfg, version, Memcache.Up, Memcache.Up, urlPath, render).rendered == RootView(after, cfg, urlPath)
  {
  }

  /** The URL of a post, "/" + year/MM/slug, is a served path whose last
      element is the slug and which rootHandler does not read as an archive
      page. */
  lemma PostPath(date: Time, slug: string)
    requires slug != "" && Free(slug, '/') && !IsDots(slug)
    ensures var urlPath := "/" + RelativeURL(false, date, slug);
            && IsServedPath(urlPath)
            && Base(urlPath) == slug
            && ParsePage(urlPath).path != "/"
  {
    var y, m := Itoa(date.year), Pad2(date.month);
    assert RelativeURL(false, date, slug) == y + "/" + m + "/" + slug;
    NestedPath(y, m, slug);
  }

  /** "/" + a + "/" + b + "/" + name, for elements a, b and name. */
  lemma NestedPath(a: string, b: string, name: string)
    requires a != "" && Free(a, '/') && !IsDots(a)
    requires b != "" && Free(b, '/') && !IsDots(b)
    requires name != "" && Free(name, '/') && !IsDots(name)
    ensures var urlPath := "/" + (a + "/" + b + "/" + name);
            && IsServedPath(urlPath)
            && Base(urlPath) == name
            && ParsePage(urlPath).path != "/"
  {
    var u := a + "/" + b + "/" + name;
    var dir := "/" + a + "/" + b;
    CleanRestOne(name);
    CleanRestCons(b, name);
    CleanRestCons(a, b + "/" + name);
    assert u == a + "/" + (b + "/" + name);
    assert ("/" + u)[1..] == u;
    assert "/" + u == dir + "/" + name;
    BaseOfChild(dir, name);
    ChildIsNotRoot(dir, name);
  }

  /** Below a non-root directory, rootHandler never serves the archive. */
  lemma ChildIsNotRoot(dir: string, name: string)
    requires dir != "" && name != "" && Free(name, '/')
    requires IsServedPath(dir + "/" + name)
    ensures ParsePage(dir + "/" + name).path != "/"
  {
    DirOfChild(dir, name);
  }

  /** A saved post whose slug is a single path element is served at "/" +
      its RelativeURL, as a single entry. */
  lemma SavedPostIsServed(site: Site, entry: SavedEntry, cfg: Config)
    requires Valid(site)
    requires !entry.isPage && entry.slug != "" && Free(entry.slug, '/') && !IsDots(entry.slug)
    requires entry.relativeURL == RelativeURL(false, entry.publishDate, entry.slug)
    ensures IsServedPath("/" + entry.relativeURL)
    ensures var after := Saved(site, entry);
            RootView(after, cfg, "/" + entry.relativeURL)
            == Some(View(EntryTpl, entry.title, [entry], GetLinks(after.links),
                         ParsePage("/" + entry.relativeURL).previousURL, ""))
  {
    SavedEntryStored(site, entry);
    PostPath(entry.publishDate, entry.slug);
  }

  /** A page is served at "/" + its slug unless the slug reads as a page
      number above 1, in which case that URL shows the archive instead. */
  lemma PageSlugShadowedByArchive(site: Site, cfg: Config, slug: string)
    requires slug != "" && Free(slug, '/') && !IsDots(slug)
    ensures IsServedPath("/" + slug)
    ensures var v := RootView(site, cfg, "/" + slug);
            Atoi(slug).GetOr(0) > 1 ==> v.Some? && v.value.template == ArchiveTpl
    ensures var v := RootView(site, cfg, "/" + slug);
            Atoi(slug).GetOr(0) <= 1 ==> (v.Some? <==> GetSingleEntry(site.entries, slug).Ok?)
  {
    CleanRestOne(slug);
    assert "/" + slug == "" + "/" + slug;
    BaseOfChild("", slug);
    DirOfChild("", slug);
  }

  /** adminEditEntryHandler: the stored entry for a slug, or a blank post or
      page to start from when no slug is given. */
  datatype EditPage = EditForm(title: string, entry: SavedEntry) | EditFailed(error: Datastore.Error)

  /** The form fields adminEditEntryHandler reads: the trimmed slug, and
      whether the trimmed is_page field is non-empty. */
  function EditEntry(store: seq<SavedEntry>, form: Form): (r: EditPage)
    ensures var slug := TrimSpace(FormValue(form, "slug"));
            var isPage := TrimSpace(FormValue(form, "is_page")) != "";
            && (slug == "" ==> r == EditForm("New", BlankEntry.(isPage := isPage, allowComments := !isPage)))
            && (slug != "" ==> (r.EditFailed? <==> forall e :: e in store ==> e.slug != slug))
            && (slug != "" && r.EditForm? ==> r.entry in store && r.entry.slug == slug)
  {
    EditEntryFor(store, TrimSpace(FormValue(form, "slug")), TrimSpace(FormValue(form, "is_page")) != "")
  }

  function EditEntryFor(store: seq<SavedEntry>, slug: string, isPage: bool): (r: EditPage)
    ensures slug == "" ==> r == EditForm("New", BlankEntry.(isPage := isPage, allowComments := !isPage))
    ensures slug != "" ==> (r.EditFailed? <==> forall e :: e in store ==> e.slug != slug)
    ensures slug != "" && r.EditForm? ==> r.entry in store && r.entry.slug == slug && r.title == r.entry.title
  {
    if slug != "" then
      match GetSingleEntry(store, slug)
      case Err(err) => EditFailed(err)
      case Ok(e) => EditForm(e.title, e)
    else
      EditForm("New", BlankEntry.(isPage := isPage, allowComments := !isPage))
  }

  /** Editing a stored entry: a form naming its slug shows that entry. */
  lemma EditShowsStored(store: seq<SavedEntry>, form: Form, e: SavedEntry)
    requires Datastore.KeyedUniquely(store, EntryKey) && e in store && e.slug != ""
    requires TrimSpace(FormValue(form, "slug")) == e.slug
    ensures EditEntry(store, form) == EditForm(e.title, e)
  {
    Datastore.GetStored(store, e, EntryKey);
  }

  /** adminHomeHandler (posts) and adminPagesHandler (pages): Count 0, so one
      configured page of entries, hidden ones included. */
  function AdminEntries(store: seq<SavedEntry>, perPage: nat, isPage: bool): (r: seq<SavedEntry>)
    ensures r == Datastore.Window(MatchingEntries(store, EntryFilters(ZeroTime, ZeroTime, true, isPage)), 0, perPage)
  {
    var q := ListQuery(isPage, 0, 0, true);
    GetEntriesIsPageOfMatches(store, q, perPage);
    GetEntries(store, q, perPage)
  }

  /** When a page holds the whole store, the admin listing shows every entry
      of its kind, hidden or not. */
  lemma AdminEntriesAll(store: seq<SavedEntry>, perPage: nat, isPage: bool, e: SavedEntry)
    requires perPage >= |store|
    ensures e in AdminEntries(store, perPage, isPage) <==> e in store && e.isPage == isPage
  {
    GetEntriesFindsAll(store, ListQuery(isPage, 0, 0, true), perPage, e);
  }

  // ---------------------------------------------------------------------------
  // Admin: links
  // ---------------------------------------------------------------------------

  /** The link built from the form; an Order that does not parse is 0. */
  function FormLink(form: Form): (l: SavedLink)
    ensures l.title == TrimSpace(FormValue(form, "new_title"))
    ensures l.url == TrimSpace(FormValue(form, "new_url"))
    ensures Atoi(TrimSpace(FormValue(form, "new_order"))).Some? ==> Atoi(TrimSpace(FormValue(form, "new_order"))) == Some(l.order)
    ensures Atoi(TrimSpace(FormValue(form, "new_order"))).None? ==> l.order == 0
  {
    SavedLink(TrimSpace(FormValue(form, "new_title")), TrimSpace(FormValue(form, "new_url")),
              Atoi(TrimSpace(FormValue(form, "new_order"))).GetOr(0))
  }

  /** adminSubmitLinksHandler: the link read from the form is saved. */
  function SubmitLinks(site: Site, form: Form, putFails: bool): (r: (Site, Option<SavedLink>))
    ensures r.1.Some? <==> !putFails
    ensures r.1.None? ==> r.0 == site
    ensures r.1.Some? ==>
              && r.1.value == FormLink(form)
              && r.0 == Site(site.entries, Datastore.Put(site.links, FormLink(form), LinkKey), Memcache.Flush(site.cache))
  {
    SaveLink(site, FormLink(form), putFails)
  }

  /** Put the link under its URL and flush the page cache; a failed Put
      changes nothing. The result is the saved link. */
  function SaveLink(site: Site, link: SavedLink, putFails: bool): (r: (Site, Option<SavedLink>))
    ensures r.1.Some? <==> !putFails
    ensures r.1.None? ==> r.0 == site
    ensures r.1.Some? ==>
              && r.1.value == link
              && r.0.links == Datastore.Put(site.links, link, LinkKey)
              && r.0.entries == site.entries
              && r.0.cache == Memcache.Flush(site.cache)
  {
    if putFails then (site, None)
    else (Site(site.entries, Datastore.Put(site.links, link, LinkKey), Memcache.Flush(site.cache)), Some(link))
  }

  /** A saved link is listed by GetLinks and stored under its URL, and the
      store stays keyed uniquely. */
  lemma SaveLinkStores(site: Site, link: SavedLink)
    requires Valid(site)
    ensures var (after, saved) := SaveLink(site, link, false);
            && Valid(after)
            && link in GetLinks(after.links)
            && (link.url != "" ==> Datastore.Get(after.links, link.url, LinkKey) == Datastore.Ok(link))
  {
    var (after, saved) := SaveLink(site, link, false);
    assert link in multiset(GetLinks(after.links));
  }

  /** A submitted link is listed by GetLinks and stored under its URL, with
      the trimmed title and URL from the form. */
  lemma SubmitLinksStores(site: Site, form: Form)
    requires Valid(site)
    ensures var (after, saved) := SubmitLinks(site, form, false);
            && saved == Some(FormLink(form))
            && Valid(after)
            && FormLink(form) in GetLinks(after.links)
            && (FormLink(form).url != "" ==> Datastore.Get(after.links, FormLink(form).url, LinkKey) == Datastore.Ok(FormLink(form)))
  {
    SaveLinkStores(site, FormLink(form));
  }

  /** A link's Order field reads the number typed into the form. */
  lemma FormLinkOrder(form: Form, n: int)
    requires TrimSpace(FormValue(form, "new_order")) == Itoa(n)
    ensures FormLink(form).order == n
  {
    ItoaRoundTrip(n);
  }
}

=== FILE: memcache.dfy ===
/** App Engine memcache as the blog uses it: Get, Add (store only when the
    key is absent) and Flush over a key -> bytes map. Whether the service
    answers is an input: when it is down, Get and Add report an error and
    change nothing. */
module Memcache {
  import opened GoText

  /** A cached value and its expiration in seconds (0: never expires).
      Expiry itself is not modelled; the expiration is only recorded. */
  datatype Item = Item(value: Bytes, expiration: int)

  datatype Cache = Cache(items: map<string, Item>)

  const EmptyCache: Cache := Cache(map[])

  /** Whether the memcache service answers a call. */
  datatype Service = Up | Down

  /** The three outcomes of memcache.Get. */
  datatype Lookup =
    | Hit(value: Bytes)  // err == nil
    | Miss               // err == memcache.ErrCacheMiss
    | Failed             // any other error

  /** memcache.Get. */
  function Get(c: Cache, key: string, service: Service): (r: Lookup)
    ensures service.Down? ==> r == Failed
    ensures service.Up? ==> (r == Miss <==> key !in c.items)
    ensures r.Hit? <==> service.Up? && key in c.items
    ensures r.Hit? ==> r.value == c.items[key].value
  {
    if service.Down? then Failed
    else if key in c.items then Hit(c.items[key].value)
    else Miss
  }

  /** The errors memcache.Add reports. */
  datatype AddError =
    | NotStored     // memcache.ErrNotStored: the key already holds a value
    | ServiceError  // the call itself failed

  /** memcache.Add: store `value` under `key` only if the key holds nothing. */
  function Add(c: Cache, key: string, value: Bytes, expiration: int, service: Service): (r: (Cache, Option<AddError>))
    ensures r.1 == None <==> service.Up? && key !in c.items
    ensures r.1 == None ==> r.0.items == c.items[key := Item(value, expiration)]
    ensures r.1 != None ==> r.0 == c
    ensures service.Up? && key in c.items ==> r.1 == Some(NotStored)
  {
    if service.Down? then (c, Some(ServiceError))
    else if key in c.items then (c, Some(NotStored))
    else (Cache(c.items[key := Item(value, expiration)]), None)
  }

  /** storeInCache: Add the content with a TTL in seconds, returning (and
      otherwise ignoring) Add's error. */
  function StoreInCache(c: Cache, key: string, content: Bytes, ttl: int, service: Service): (r: (Cache, Option<AddError>))
    ensures key in r.0.items
            ==> r.0.items[key] == (if key in c.items then c.items[key] else Item(content, ttl))
    ensures forall k :: k in c.items ==> k in r.0.items && r.0.items[k] == c.items[k]
    ensures forall k :: k in r.0.items && k != key ==> k in c.items
    ensures service.Up? ==> key in r.0.items
    ensures service.Down? ==> r.0 == c
  {
    Add(c, key, content, ttl, service)
  }

  /** memcache.Flush: every item is removed. */
  function Flush(c: Cache): (r: Cache)
    ensures forall key, service :: !Get(r, key, service).Hit?
    ensures forall key :: Get(r, key, Up) == Miss
  {
    EmptyCache
  }
}

=== FILE: paths.dfy ===
/** URL paths as the handlers take them apart with path/filepath: Base (the
    last element) and Dir (everything before it). */
module Paths {
  import opened GoText

  /** Position of the last `c` in `s`, or -1. */
  function LastIndex(s: string, c: char): (i: int)
    ensures -1 <= i < |s|
    ensures i >= 0 ==> s[i] == c
    ensures forall j :: i < j < |s| ==> s[j] != c
    decreases |s|
  {
    if |s| == 0 then -1
    else if s[|s| - 1] == c then |s| - 1
    else LastIndex(s[..|s| - 1], c)
  }

  /** A string without the character `c`. */
  predicate Free(s: string, c: char) {
    forall i :: 0 <= i < |s| ==> s[i] != c
  }

  /** `s` is "." or "..". */
  predicate IsDots(s: string) {
    s == "." || s == ".."
  }

  /** What follows a slash in a canonical path: nothing, or a non-empty
      element other than "." and "..", then nothing or a slash and more. */
  predicate CleanRest(s: string)
    decreases |s|
  {
    if s == "" then true
    else
      var i := Index(s, "/");
      if i < 0 then !IsDots(s)
      else 0 < i && !IsDots(s[..i]) && CleanRest(s[i + 1..])
  }

  /** A path in the canonical form http.ServeMux hands to a handler (it
      redirects any other): absolute, no empty element except after a
      trailing slash, and no "." or ".." element. */
  predicate IsServedPath(p: string) {
    |p| > 0 && p[0] == '/' && CleanRest(p[1..])
  }

  /** The first slash in `a + "/" + b` is the one after `a` when `a` has none. */
  lemma FirstSlash(a: string, b: string)
    requires Free(a, '/')
    ensures Index(a + "/" + b, "/") == |a|
  {
    var s := a + "/" + b;
    assert OccursAt(s, "/", |a|);
    forall k | 0 <= k < |a|
      ensures !OccursAt(s, "/", k)
    {
      assert s[k..k + 1] == [a[k]];
    }
  }

  lemma NoSlash(a: string)
    requires Free(a, '/')
    ensures Index(a, "/") < 0
  {
    forall k | 0 <= k
      ensures !OccursAt(a, "/", k)
    {
      if k + 1 <= |a| {
        assert a[k..k + 1] == [a[k]];
      }
    }
  }

  /** A valid element followed by a slash and a valid rest is a valid rest. */
  lemma CleanRestCons(e: string, rest: string)
    requires e != "" && Free(e, '/') && !IsDots(e)
    requires CleanRest(rest)
    ensures CleanRest(e + "/" + rest)
  {
    var s := e + "/" + rest;
    FirstSlash(e, rest);
    assert s[..|e|] == e && s[|e| + 1..] == rest;
  }

  lemma CleanRestOne(e: string)
    requires e != "" && Free(e, '/') && !IsDots(e)
    ensures CleanRest(e)
  {
    NoSlash(e);
  }

  /** `s` without its trailing slashes. */
  function TrimTrailingSlashes(s: string): (t: string)
    ensures |t| <= |s| && t == s[..|t|]
    ensures |t| > 0 ==> t[|t| - 1] != '/'
    ensures forall i :: |t| <= i < |s| ==> s[i] == '/'
    decreases |s|
  {
    if |s| > 0 && s[|s| - 1] == '/' then TrimTrailingSlashes(s[..|s| - 1]) else s
  }

  /** filepath.Base: the last element after trailing slashes are removed;
      "." for the empty path and "/" for a path of slashes only. */
  function Base(p: string): (b: string)
    ensures |b| > 0
    ensures b != "/" && b != "." ==> Free(b, '/')
    ensures p == "" ==> b == "."
    ensures p != "" && (forall i :: 0 <= i < |p| ==> p[i] == '/') ==> b == "/"
    ensures TrimTrailingSlashes(p) != "" ==>
              var t := TrimTrailingSlashes(p);
              && |b| <= |t| && b == t[|t| - |b|..] && Free(b, '/')
              && (|b| == |t| || t[|t| - |b| - 1] == '/')
  {
    if p == "" then "."
    else
      var t := TrimTrailingSlashes(p);
      if t == "" then "/"
      else
        var i := LastIndex(t, '/');
        var b := t[i + 1..];
        assert b[|b| - 1] == t[|t| - 1];
        b
  }

  /** filepath.Dir of a served path: everything before the last slash, with
      that slash dropped unless it is the root. For a served path the
      filepath.Clean that Dir applies changes nothing else. */
  function Dir(p: string): (d: string)
    requires IsServedPath(p)
    ensures |d| > 0 && d[0] == '/'
    ensures d == "/" || (|d| < |p| && d == p[..|d|] && p[|d|] == '/')
    ensures d == "/" ==> Free(p[1..], '/')
    ensures d != "/" ==> Free(p[|d| + 1..], '/')
    ensures |p| > 1 && p[|p| - 1] == '/' ==> d == p[..|p| - 1]
  {
    var i := LastIndex(p, '/');
    if i == 0 then "/" else p[..i]
  }

  /** One element under a directory: Base gives the element back and Dir the
      directory. */
  lemma BaseOfChild(dir: string, name: string)
    requires name != "" && Free(name, '/')
    ensures Base(dir + "/" + name) == name
    ensures Base(dir + "/" + name + "/") == name
  {
    var p := dir + "/" + name;
    assert p[|p| - 1] == name[|name| - 1];
    assert TrimTrailingSlashes(p) == p;
    assert (p + "/")[..|p|] == p;
    assert TrimTrailingSlashes(p + "/") == p;
    assert p[|dir|] == '/';
    forall j | |dir| < j < |p|
      ensures p[j] != '/'
    {
      assert p[j] == name[j - |dir| - 1];
    }
    var i := LastIndex(p, '/');
    assert p[i + 1..] == name;
  }

  lemma DirOfChild(dir: string, name: string)
    requires name != "" && Free(name, '/')
    requires IsServedPath(dir + "/" + name)
    ensures Dir(dir + "/" + name) == (if dir == "" then "/" else dir)
  {
    var p := dir + "/" + name;
    assert p[|dir|] == '/';
    forall j | |dir| < j < |p|
      ensures p[j] != '/'
    {
      assert p[j] == name[j - |dir| - 1];
    }
    var i := LastIndex(p, '/');
    assert p[..i] == dir;
  }

  /** A trailing slash makes the last element the directory: Dir of
      `dir/name/` is `dir/name`. */
  lemma DirOfChildDir(dir: string, name: string)
    requires name != "" && Free(name, '/')
    requires IsServedPath(dir + "/" + name + "/")
    ensures Dir(dir + "/" + name + "/") == dir + "/" + name
  {
    var p := dir + "/" + name + "/";
    assert p[..|p| - 1] == dir + "/" + name;
  }

  /** An element made of decimal digits and signs is neither "." nor "..". */
  lemma NumberNotDots(s: string)
    requires |s| > 0 && IsDigit(s[|s| - 1])
    ensures !IsDots(s)
  {
  }
}

=== FILE: snippets.dfy ===
/** The ExtractPageContent template function: fetch a page, keep the lines
    between a start token and an end token, and cache the result under the
    URL and both tokens. The fetch is an input: the page's lines, or the
    error the fetch or the line scanner reported. */
module TemplateFunctions {
  import opened GoText
  import Memcache

  /** The cache key of an extract: URL, start token and end token joined
      by "-". */
  function SnippetKey(url: string, start: string, end: string): (k: string)
    ensures |k| == |url| + |start| + |end| + 2
    ensures k[..|url|] == url && k[|url|] == '-'
    ensures k[|url| + 1..|url| + 1 + |start|] == start && k[|url| + 1 + |start|] == '-'
    ensures k[|url| + 2 + |start|..] == end
  {
    url + "-" + start + "-" + end
  }

  /** The key does not tell its parts apart: a "-" inside the URL or a token
      moves the boundary without changing the key. */
  lemma SnippetKeyCollides()
    ensures SnippetKey("a-b", "c", "d") == SnippetKey("a", "b-c", "d")
  {
  }

  /** strings.Contains(line, token) on the line's bytes. */
  predicate HasToken(line: Bytes, token: string) {
    Contains(line, Utf8Encode(token))
  }

  // ---------------------------------------------------------------------------
  // The line scanner
  // ---------------------------------------------------------------------------

  /** The loop's state: whether the last line was inside a block, and the
      bytes collected so far. */
  datatype ScanState = ScanState(inBlock: bool, buffer: Bytes)

  /** One line's effect on inBlock: a start token sets it, then an end token
      on the same line clears it. */
  function Step(inBlock: bool, line: Bytes, start: string, end: string): bool {
    var afterStart := if HasToken(line, start) then true else inBlock;
    if HasToken(line, end) then false else afterStart
  }

  /** The scanning loop over the lines seen so far: a line is written to the
      buffer when inBlock holds after it. */
  function Scan(lines: seq<Bytes>, start: string, end: string): (r: ScanState)
    ensures |lines| == 0 ==> r == ScanState(false, [])
    ensures |lines| > 0 && HasToken(lines[|lines| - 1], end) ==> !r.inBlock
    ensures |lines| > 0 && HasToken(lines[|lines| - 1], start) && !HasToken(lines[|lines| - 1], end) ==> r.inBlock
    ensures !r.inBlock ==> |lines| == 0 || r.buffer == Scan(lines[..|lines| - 1], start, end).buffer
    decreases |lines|
  {
    if |lines| == 0 then ScanState(false, [])
    else
      var prev := Scan(lines[..|lines| - 1], start, end);
      var line := lines[|lines| - 1];
      var inBlock := Step(prev.inBlock, line, start, end);
      ScanState(inBlock, if inBlock then prev.buffer + line else prev.buffer)
  }

  /** The reference reading of the loop: line i is captured when it holds no
      end token and some line at or before it holds a start token with no end
      token on any line from there to line i. */
  predicate Captured(lines: seq<Bytes>, start: string, end: string, i: int)
    requires 0 <= i < |lines|
  {
    && !HasToken(lines[i], end)
    && exists j :: 0 <= j <= i && HasToken(lines[j], start)
                   && forall k :: j <= k <= i ==> !HasToken(lines[k], end)
  }

  /** The captured lines, in order, joined. */
  function Selected(lines: seq<Bytes>, start: string, end: string): Bytes
    decreases |lines|
  {
    if |lines| == 0 then []
    else
      var n := |lines| - 1;
      Selected(lines[..n], start, end) + (if Captured(lines, start, end, n) then lines[n] else [])
  }

  /** Whether a line is captured depends only on the lines up to it. */
  lemma CapturedPrefix(lines: seq<Bytes>, start: string, end: string, m: nat, i: nat)
    requires i < m <= |lines|
    ensures Captured(lines[..m], start, end, i) == Captured(lines, start, end, i)
  {
    var p := lines[..m];
    assert forall k :: 0 <= k <= i ==> p[k] == lines[k];
  }

  /** The loop's step, read on the reference: a line is captured exactly
      when it has no end token and either starts a block or follows a
      captured line. */
  lemma CapturedStep(lines: seq<Bytes>, start: string, end: string, i: nat)
    requires i < |lines|
    ensures Captured(lines, start, end, i)
            <==> !HasToken(lines[i], end)
                 && (HasToken(lines[i], start) || (i > 0 && Captured(lines, start, end, i - 1)))
  {
    if Captured(lines, start, end, i) && !HasToken(lines[i], start) {
      CapturedBefore(lines, start, end, i);
    }
    if !HasToken(lines[i], end) && HasToken(lines[i], start) {
      assert HasToken(lines[i], start) && forall k :: i <= k <= i ==> !HasToken(lines[k], end);
    }
    if !HasToken(lines[i], end) && i > 0 && Captured(lines, start, end, i - 1) {
      CapturedAfter(lines, start, end, i);
    }
  }

  /** A captured line that starts no block follows a captured line. */
  lemma CapturedBefore(lines: seq<Bytes>, start: string, end: string, i: nat)
    requires i < |lines| && Captured(lines, start, end, i) && !HasToken(lines[i], start)
    ensures i > 0 && Captured(lines, start, end, i - 1)
  {
    var j :| 0 <= j <= i && HasToken(lines[j], start)
             && forall k :: j <= k <= i ==> !HasToken(lines[k], end);
    assert j < i;
    assert !HasToken(lines[i - 1], end);
    assert forall k :: j <= k <= i - 1 ==> !HasToken(lines[k], end);
  }

  /** A block goes on past a line without the end token. */
  lemma CapturedAfter(lines: seq<Bytes>, start: string, end: string, i: nat)
    requires 0 < i < |lines| && Captured(lines, start, end, i - 1) && !HasToken(lines[i], end)
    ensures Captured(lines, start, end, i)
  {
    var j :| 0 <= j <= i - 1 && HasToken(lines[j], start)
             && forall k :: j <= k <= i - 1 ==> !HasToken(lines[k], end);
    assert forall k :: j <= k <= i ==> !HasToken(lines[k], end);
  }

  /** The scanning loop computes the reference: inBlock is whether the last
      line was captured, and the buffer is the captured lines joined. */
  lemma {:induction false} ScanIsSelected(lines: seq<Bytes>, start: string, end: string)
    ensures Scan(lines, start, end).inBlock == (|lines| > 0 && Captured(lines, start, end, |lines| - 1))
    ensures Scan(lines, start, end).buffer == Selected(lines, start, end)
    decreases |lines|
  {
    if |lines| > 0 {
      var n := |lines| - 1;
      ScanIsSelected(lines[..n], start, end);
      CapturedStep(lines, start, end, n);
      if n > 0 {
        CapturedPrefix(lines, start, end, n, n - 1);
      }
    }
  }

  /** A line holding the end token is never captured. */
  lemma EndLineNotCaptured(lines: seq<Bytes>, start: string, end: string, i: nat)
    requires i < |lines| && HasToken(lines[i], end)
    ensures !Captured(lines, start, end, i)
  {
  }

  /** With no start token anywhere nothing is captured. */
  lemma {:induction false} NoStartNoExtract(lines: seq<Bytes>, start: string, end: string)
    requires forall i :: 0 <= i < |lines| ==> !HasToken(lines[i], start)
    ensures Scan(lines, start, end).buffer == []
    decreases |lines|
  {
    ScanIsSelected(lines, start, end);
    if |lines| > 0 {
      var n := |lines| - 1;
      NoStartNoExtract(lines[..n], start, end);
      ScanIsSelected(lines[..n], start, end);
    }
  }

  /** Every line contains the empty string, so an empty end token ends every
      block on the line that starts it and nothing is captured. */
  lemma {:induction false} EmptyEndNoExtract(lines: seq<Bytes>, start: string)
    ensures Scan(lines, start, "").buffer == []
    decreases |lines|
  {
    if |lines| > 0 {
      var n := |lines| - 1;
      EmptyEndNoExtract(lines[..n], start);
      ContainsEmpty(lines[n]);
      assert Utf8Encode("") == [];
    }
  }

  /** Lines of one block: the start line (without the end token), the lines
      inside it (without the end token), then the end line; the start line
      and everything inside are captured, the end line is not. */
  lemma BlockExtract(first: Bytes, inside: Bytes, last: Bytes, start: string, end: string)
    requires HasToken(first, start) && !HasToken(first, end)
    requires !HasToken(inside, end)
    requires HasToken(last, end)
    ensures Scan([first, inside, last], start, end) == ScanState(false, first + inside)
  {
    var lines := [first, inside, last];
    assert lines[..2][..1] == [first] && [first][..0] == [];
    assert Scan([first], start, end) == ScanState(true, [] + first);
    assert [] + first == first;
    assert lines[..2] == [first, inside];
    assert Scan([first, inside], start, end) == ScanState(true, first + inside);
  }

  // ---------------------------------------------------------------------------
  // ExtractPageContent
  // ---------------------------------------------------------------------------

  /** What the fetch gave: the page's lines, or an error from the HTTP client
      or from the line scanner. */
  datatype Fetch = Fetched(lines: seq<Bytes>) | FetchFailed | ScanFailed

  datatype SnippetResult = Content(html: Bytes) | Failed(cause: Fetch)

  /** The result, whether the page was fetched, and the cache afterwards. */
  datatype Extracted = Extracted(result: SnippetResult, fetched: bool, cache: Memcache.Cache)

  /** ExtractPageContent: a cached extract is returned as it is; otherwise the
      page is fetched and scanned, and the extract is offered to the cache
      with the external page TTL (a failed Add is ignored). Errors return no
      content and leave the cache alone. `getService` and `addService` say
      whether memcache answers the Get and the Add. */
  function ExtractPageContent(c: Memcache.Cache, getService: Memcache.Service, addService: Memcache.Service,
                              url: string, start: string, end: string, fetch: Fetch, ttl: int): (r: Extracted)
    ensures var key := SnippetKey(url, start, end);
            Memcache.Get(c, key, getService).Hit? ==> r == Extracted(Content(c.items[key].value), false, c)
    ensures var key := SnippetKey(url, start, end);
            !Memcache.Get(c, key, getService).Hit? ==>
              && r.fetched
              && (fetch.Fetched? <==> r.result.Content?)
              && (!fetch.Fetched? ==> r.result == Failed(fetch) && r.cache == c)
              && (fetch.Fetched? ==> r.result.html == Selected(fetch.lines, start, end))
              && (fetch.Fetched? && addService.Up? && key !in c.items ==>
                    r.cache.items == c.items[key := Memcache.Item(r.result.html, ttl)])
    ensures addService.Down? ==> r.cache == c
    ensures forall k :: k in c.items ==> k in r.cache.items && r.cache.items[k] == c.items[k]
  {
    var key := SnippetKey(url, start, end);
    match Memcache.Get(c, key, getService)
    case Hit(value) => Extracted(Content(value), false, c)
    case _ =>
      match fetch
      case Fetched(lines) =>
        var extract := Scan(lines, start, end).buffer;
        ScanIsSelected(lines, start, end);
        Extracted(Content(extract), true, Memcache.StoreInCache(c, key, extract, ttl, addService).0)
      case _ => Extracted(Failed(fetch), true, c)
  }

  /** With memcache up, a successful extract is served from the cache on the
      next call with the same URL and tokens, without fetching, whatever the
      page holds by then. */
  lemma ExtractRepeats(c: Memcache.Cache, url: string, start: string, end: string,
                       fetch1: Fetch, fetch2: Fetch, ttl: int)
    requires ExtractPageContent(c, Memcache.Up, Memcache.Up, url, start, end, fetch1, ttl).result.Content?
    ensures var first := ExtractPageContent(c, Memcache.Up, Memcache.Up, url, start, end, fetch1, ttl);
            var second := ExtractPageContent(first.cache, Memcache.Up, Memcache.Up, url, start, end, fetch2, ttl);
            second == Extracted(first.result, false, first.cache)
  {
  }
}

=== FILE: sorting.dfy ===
/** Ordering as the datastore applies it: a stable insertion sort under a
    total preorder, and the byte-wise (code point) order on strings. */
module Sorting {

  /** `le` is total and transitive, so it orders any sequence. */
  ghost predicate TotalPreorder<T(!new)>(le: (T, T) -> bool) {
    && (forall a, b :: le(a, b) || le(b, a))
    && (forall a, b, c :: le(a, b) && le(b, c) ==> le(a, c))
  }

  /** Every element is `le` each element after it. */
  predicate SortedBy<T>(s: seq<T>, le: (T, T) -> bool) {
    forall i, j :: 0 <= i < j < |s| ==> le(s[i], s[j])
  }

  lemma SortedTail<T>(s: seq<T>, le: (T, T) -> bool)
    requires |s| > 0 && SortedBy(s, le)
    ensures SortedBy(s[1..], le)
  {
    forall i, j | 0 <= i < j < |s| - 1
      ensures le(s[1..][i], s[1..][j])
    {
      assert s[1..][i] == s[i + 1] && s[1..][j] == s[j + 1];
    }
  }

  lemma SortedCons<T>(x: T, s: seq<T>, le: (T, T) -> bool)
    requires SortedBy(s, le)
    requires forall y :: y in s ==> le(x, y)
    ensures SortedBy([x] + s, le)
  {
    var r := [x] + s;
    forall i, j | 0 <= i < j < |r|
      ensures le(r[i], r[j])
    {
      assert r[j] == s[j - 1];
      if i > 0 {
        assert r[i] == s[i - 1];
      }
    }
  }

  /** Inserts `x` in front of the first element it is `le`. */
  function Insert<T(!new)>(x: T, s: seq<T>, le: (T, T) -> bool): (r: seq<T>)
    requires TotalPreorder(le)
    requires SortedBy(s, le)
    ensures SortedBy(r, le)
    ensures multiset(r) == multiset(s) + multiset{x}
    decreases |s|
  {
    if |s| == 0 then [x]
    else if le(x, s[0]) then
      SortedCons(x, s, le);
      [x] + s
    else
      SortedTail(s, le);
      var t := Insert(x, s[1..], le);
      assert s == [s[0]] + s[1..];
      forall y | y in t
        ensures le(s[0], y)
      {
        assert y in multiset(t);
        if y != x {
          assert y in multiset(s[1..]);
        }
      }
      SortedCons(s[0], t, le);
      [s[0]] + t
  }

  /** Insertion sort: the elements of `s`, rearranged into `le` order. */
  function Sort<T(!new)>(s: seq<T>, le: (T, T) -> bool): (r: seq<T>)
    requires TotalPreorder(le)
    ensures SortedBy(r, le)
    ensures multiset(r) == multiset(s)
    decreases |s|
  {
    if |s| == 0 then []
    else
      assert s == [s[0]] + s[1..];
      Insert(s[0], Sort(s[1..], le), le)
  }

  /** A contiguous part of a sequence holds no element the whole did not. */
  lemma SliceMultiset<T>(s: seq<T>, i: int, j: int)
    requires 0 <= i <= j <= |s|
    ensures multiset(s[i..j]) <= multiset(s)
  {
    assert s == s[..i] + s[i..j] + s[j..];
  }

  lemma SortedSlice<T>(s: seq<T>, le: (T, T) -> bool, i: int, j: int)
    requires SortedBy(s, le) && 0 <= i <= j <= |s|
    ensures SortedBy(s[i..j], le)
  {
    forall a, b | 0 <= a < b < j - i
      ensures le(s[i..j][a], s[i..j][b])
    {
      assert s[i..j][a] == s[i + a] && s[i..j][b] == s[i + b];
    }
  }

  // ---------------------------------------------------------------------------
  // String order: lexicographic on code points, which for UTF-8 is also the
  // byte-wise order the datastore uses.
  // ---------------------------------------------------------------------------

  predicate StrLe(a: string, b: string)
    decreases |a|
  {
    |a| == 0 || (|b| > 0 && (a[0] < b[0] || (a[0] == b[0] && StrLe(a[1..], b[1..]))))
  }

  lemma {:induction false} StrLeTotal(a: string, b: string)
    ensures StrLe(a, b) || StrLe(b, a)
    decreases |a|
  {
    if |a| > 0 && |b| > 0 && a[0] == b[0] {
      StrLeTotal(a[1..], b[1..]);
    }
  }

  lemma {:induction false} StrLeTransitive(a: string, b: string, c: string)
    requires StrLe(a, b) && StrLe(b, c)
    ensures StrLe(a, c)
    decreases |a|
  {
    if |a| > 0 && a[0] == b[0] && b[0] == c[0] {
      StrLeTransitive(a[1..], b[1..], c[1..]);
    }
  }

  lemma {:induction false} StrLeAntisymmetric(a: string, b: string)
    requires StrLe(a, b) && StrLe(b, a)
    ensures a == b
    decreases |a|
  {
    if |a| > 0 {
      StrLeAntisymmetric(a[1..], b[1..]);
      assert a == [a[0]] + a[1..] && b == [b[0]] + b[1..];
    }
  }
}
